=== FILE: README.md ===
# OpenLLM configuration engine, modelled in Dafny

OpenLLM describes every model with an `LLMConfig` subclass. The class declares
annotated fields, a `__config__` dictionary and an optional nested
`GenerationConfig` block. When the subclass is created, `__init_subclass__`
turns these into a schema:

- a `ModelConfig` with defaults filled in;
- a field table of own attributes followed by inherited ones, checked for
  mandatory-after-default order;
- environment-bound defaults (`OPENLLM_<MODEL>_<FIELD>`);
- a generated `<Name>GenerationConfig` class whose defaults come from the block
  or the environment.

Instances are then built from keyword arguments (`__init__`), from dictionaries
(`structure_llm_config`), from the environment plus keywords
(`model_construct_env`), or from click options (`model_validate_click`,
`attrs_to_options`). Each route splits its input into primary arguments,
generation arguments and "extras", and deep-merges dictionaries with
`config_merger`.

The model covers these transformations as pure functions over immutable data.

| module | file | what it holds |
|---|---|---|
| `Common` | `common.dfy` | `Option`, `Result`, the error kinds, and the string operations used (`startswith`, ASCII `upper`/`lower`, `lstrip("_")`, `replace`) |
| `Values` | `values.dfy` | a JSON-like `Value` type and the deep merge `config_merger` performs |
| `Fields` | `fields.dfy` | the attribute record, environment-variable keys, `_is_class_var` |
| `BaseAttrs` | `base_attrs.dfy` | `_collect_base_attrs`, as a specification and as the two-loop method |
| `Schema` | `schema.dfy` | `_gen_default_model_config`, own-field collection, the order check, environment binding, the generation class, and all of `__init_subclass__` |
| `Construct` | `construct.dfy` | `LLMConfig.__init__`: keyword routing and the attrs initialiser |
| `Routing` | `routing.dfy` | `model_construct_env`'s split and the instance it rebuilds, `model_validate_click`, `structure_llm_config` |
| `Options` | `options.dfy` | the option descriptor of `attrs_to_options` and how its identifier is routed back |

Representation choices:

- The process environment is a parameter `env: map<string, string>`.
- The `inflection` package's `underscore` and `dasherize` are function-valued
  parameters (`Schema.Inflection`) with no assumed properties.
- Python dictionaries are `map<string, Value>`. Key order only affects a log
  message, so it is not represented.
- The class hierarchy is given to `BaseAttrs` as the sequence of ancestor
  attribute tables, in MRO order.

Where the code and its description disagree, the model follows the code:

- Without an own `GenerationConfig` block, generation defaults ignore the
  environment entirely (line 579).
- A value read from the environment stays a string, so
  `OPENLLM_<MODEL>_MAX_TOKENS=50` gives the default `"50"`, not `50`.
- The keys `__init__` accepts are the own field names plus the generation
  field names. An inherited field's name is therefore routed to extras.
- A field that already had an alias loses it (line 950): after binding, an
  alias is set exactly when the incoming one was unset or empty, and cleared
  otherwise. Inherited attributes arrive with the alias their ancestor bound,
  so down a chain of subclasses the alias alternates between set and cleared.
- The deep merge is not associative. With `a = {x: {p: 1}}`, `b = {x: 5}` and
  `c = {x: {q: 2}}`, `merge(merge(a, b), c)` yields `{x: {q: 2}}`, while
  `merge(a, merge(b, c))` yields `{x: {p: 1, q: 2}}`. Right idempotence is
  proved instead.

## Model

| member | source | states |
|---|---|---|
| Values.Merge | src/openllm/_configuration.py:89-96 | two dictionaries merge key by key: keys of either side are kept, a key on one side only keeps its value, a key on both sides merges recursively; in every other case the right-hand value wins |
| Values.MergeMaps | src/openllm/_configuration.py:89-96 | merged keys are the union of both sides; a key only on the left keeps its value; a right value wins unless both sides hold dictionaries; keys on both sides merge recursively |
| Values.MergeRightLeafWins | src/openllm/_configuration.py:89-96 | at any path where the right side holds a non-dictionary value, the merge result holds that value, however deep the path |
| Values.MergeKeepsUntouched | src/openllm/_configuration.py:89-96 | a left value at a path the right side does not reach survives the merge unchanged |
| Values.MergeSelf | src/openllm/_configuration.py:89-96 | merging a value with itself gives it back |
| Values.MergeRightIdempotent | src/openllm/_configuration.py:89-96 | merging the same right-hand side a second time changes nothing |
| Values.MergeIntoEmpty | src/openllm/_configuration.py:89-96 | deep-merging into an empty mapping gives back the source mapping unchanged |
| Values.MergeExamples | src/openllm/_configuration.py:89-96 | nested dictionaries combine key by key; a type conflict is resolved in favour of the right side |
| Common.LStripUnderscores | src/openllm/_configuration.py:950 | `lstrip("_")` removes exactly the leading underscores: the result is a suffix, everything cut is `_`, and the result does not start with `_` |
| Fields.FieldEnvKeyInjective | src/openllm/_configuration.py:885-886 | within one model, two fields share an environment variable exactly when their upper-cased names agree |
| Fields.GenerationKeyIsPrefixedFieldKey | src/openllm/_configuration.py:577 | the generation key of `x` inserts `_GENERATION_` and equals the primary key of a field named `generation_x` |
| Fields.IsClassVar | src/openllm/_configuration.py:496-510 | an annotation starting and ending with a quote character is a class variable exactly when the text between the quotes starts with a `ClassVar` prefix; any other annotation exactly when it starts with one |
| Fields.IsClassVarQuoted | src/openllm/_configuration.py:496-510 | wrapping an annotation in any pair of quote characters, matching or not, leaves the `ClassVar` verdict unchanged |
| Fields.IsClassVarPlainExample | src/openllm/_configuration.py:496-510 | `t.ClassVar[int]` is a class variable |
| Fields.IsClassVarNestedExample | src/openllm/_configuration.py:496-510 | a `ClassVar` nested inside another annotation is not recognised; only a prefix counts |
| BaseAttrs.Contribution | src/openllm/_configuration.py:468-474 | one ancestor contributes exactly its attributes that are not yet inherited and whose names are not taken, each flagged inherited |
| BaseAttrs.ContributionAppend | src/openllm/_configuration.py:468-474 | the per-attribute scan over a concatenated table contributes the two parts' contributions in order |
| BaseAttrs.Candidates | src/openllm/_configuration.py:467-474 | the gathered list holds exactly the contributions of all ancestors |
| BaseAttrs.KeepLastNames | src/openllm/_configuration.py:477-483 | de-duplication leaves one attribute per name and loses no name |
| BaseAttrs.KeepLastPicksLast | src/openllm/_configuration.py:477-483 | the attribute kept for a name is that name's last occurrence |
| BaseAttrs.KeepLastOrder | src/openllm/_configuration.py:477-483 | kept attributes appear in the order of their last occurrences |
| BaseAttrs.KeepLastOrderAt | src/openllm/_configuration.py:477-483 | for any two kept positions, the earlier kept attribute's last occurrence precedes the later one's |
| BaseAttrs.BaseAttributes | src/openllm/_configuration.py:457-485 | inherited attributes have no duplicate or taken names, are all flagged inherited, each comes from a not-yet-inherited ancestor attribute, cover every candidate name, are last occurrences, and follow last-occurrence order |
| BaseAttrs.GatherCandidates | src/openllm/_configuration.py:467-474 | the nested loop over ancestors, root first, builds exactly the candidate list `Candidates` |
| BaseAttrs.DropShadowed | src/openllm/_configuration.py:477-483 | the backward scan with a seen-name set, inserting at the front, builds exactly `KeepLast` |
| BaseAttrs.CollectBaseAttrs | src/openllm/_configuration.py:467-485 | the root-to-nearest gathering loop followed by the backward de-duplication loop computes exactly `BaseAttributes` |
| Schema.GenDefaultModelConfig | src/openllm/_configuration.py:627-673 | a missing `default_id` fails first, then a missing `model_ids`; otherwise given entries are kept; absent ones take their documented defaults; the model and start names follow the `name_type` branches |
| Schema.GenDefaultModelConfigFixpoint | src/openllm/_configuration.py:639-667 | feeding a complete configuration back as `__config__` reproduces it: `first_not_none` never overrides a given value |
| Schema.GenDefaultModelConfigExample | src/openllm/_configuration.py:653-667 | with only ids and names given, every other entry takes its default (`dasherize`, `(not provided)`, `False`, `[]`, 3600, 1) |
| Schema.FieldAnnotations | src/openllm/_configuration.py:891-894 | the annotations kept as fields are exactly those not recognised as `ClassVar` |
| Schema.FieldAnnotationsUnique | src/openllm/_configuration.py:891-894 | dropping class variables keeps annotation names distinct |
| Schema.OwnAttrs | src/openllm/_configuration.py:888-920 | a `Field` member without an annotation is an error naming all such members; otherwise one attribute per field annotation, in order, with its type, the env key, and a default from the `Field` arguments, a plain value, or a bare `Field()`; `init`, `kw_only`, `alias` and `description` are those of the `Field` call, and a plain value or missing member is positional, aliasless and undescribed |
| Schema.OwnNamesUnique | src/openllm/_configuration.py:913-928 | `__openllm_attrs__` has no repeated name |
| Schema.FirstOrderViolationCorrect | src/openllm/_configuration.py:936-945 | the check fails exactly when a positional mandatory field follows a positional defaulted one, and it reports such a field |
| Schema.OrderCheckIgnoresExempt | src/openllm/_configuration.py:937 | `kw_only` fields and fields with `init` unset never influence the check |
| Schema.BuildFieldTable | src/openllm/_configuration.py:930-955 | the table is own fields then base fields; it fails iff there is an order violation, naming a positional mandatory field; each default is the environment value when the variable is set, else the declared one; an unset or empty alias becomes the name without leading underscores and any other alias is cleared; nothing else changes |
| Schema.EnvOverridesDeclaredDefault | src/openllm/_configuration.py:948-955 | setting a field's variable makes its value the default; removing it restores the declared default |
| Schema.TableNamesUnique | src/openllm/_configuration.py:930 | own fields followed by base fields with disjoint names give a table without repeated names whose tail is the base fields |
| Schema.FieldTableFacts | src/openllm/_configuration.py:924-955 | the bound table of own and inherited attributes has distinct names, starts with the own names, and its tail is flagged inherited |
| Schema.GenerationDefault | src/openllm/_configuration.py:576-579 | without an own block the declared default; with one, the block's value when it names the field, else the environment variable's value when set, else the declared default |
| Schema.GenerationFields | src/openllm/_configuration.py:572-583 | each generation field keeps its name, type, `init`, `kw_only`, alias and description, is flagged inherited, and gets the generation env key; without an own block the default is unchanged; with one, block value, then environment, then declared default |
| Schema.GenerationIgnoresEnvWithoutBlock | src/openllm/_configuration.py:579 | without an own block, generation defaults do not depend on the environment |
| Schema.GenerationBlockBeatsEnv | src/openllm/_configuration.py:579 | a value set in the own block is the default whatever the environment holds |
| Schema.BuildSchema | src/openllm/_configuration.py:874-986 | registration fails on a missing id, missing ids or unannotated field, in that order, and past those exactly on an order violation among own-then-inherited fields; on success the table is the environment-bound own-then-inherited table, has distinct names, begins with `__openllm_attrs__` and continues with inherited fields; the generation class is named after the class and its fields are the base generation fields with this model's defaults |
| Schema.AcceptedKeys | src/openllm/_configuration.py:986 | a key is accepted exactly when it is an own field name or a generation field name |
| Construct.Instantiate | src/openllm/_configuration.py:1025-1044 | the initialiser rejects unknown keywords first, naming them, then missing mandatory ones, naming them; otherwise given arguments are kept verbatim, and defaulted fields take their default |
| Construct.Route | src/openllm/_configuration.py:996-1041 | extras are the caller's extras deep-merged with unaccepted keys; primary arguments are accepted, non-None, not generation fields, and in neither extras nor generation arguments; generation arguments are the remaining generation keys, or the explicit mapping with the top-level generation keys reported as ignored; every non-None keyword lands somewhere |
| Construct.Construct | src/openllm/_configuration.py:988-1044 | construction succeeds exactly when both initialisers accept their share; the instance keeps the routed extras, reports the ignored keys, holds each primary and generation argument as given, and its primary and generation values are what the two initialisers build, defaults included |
| Construct.ConstructRoutesKeywords | src/openllm/_configuration.py:996-1044 | on the instance, a keyword the class does not accept is kept in extras, and a non-None generation field keyword is that field's generation value |
| Construct.ConstructPrecedence | src/openllm/_configuration.py:996-1044 | an explicit non-None own-field argument beats the environment-bound default; without one, the default is the value |
| Construct.RouteExample | src/openllm/_configuration.py:996-1016 | `temperature` goes to the generation arguments, an own field stays primary, and an unknown `foo` goes to extras |
| Construct.RouteCollisionExample | src/openllm/_configuration.py:1011-1041 | with an explicit `generation_config`, a top-level `temperature` is only reported and reaches neither initialiser |
| Routing.ConstructEnvSplit | src/openllm/_configuration.py:1091-1113 | None values are dropped; a non-dictionary `generation_config` is an error; generation arguments are that dictionary or the generation-field keywords; primary arguments are the other non-None keywords outside the generation arguments |
| Routing.ValidateClick | src/openllm/_configuration.py:1117-1130 | `<model>_generation_x` becomes `x` in `generation_config`; any other `<model>_x` becomes top-level `x`; the remainder is exactly the keys without the `<model>_` prefix, unchanged |
| Routing.ValidateClickGenerationConfigKey | src/openllm/_configuration.py:1118-1128 | the option `<model>_generation_config` lands as `config` inside the generation dictionary, which it therefore cannot overwrite |
| Routing.ValidateClickGenerationOption | src/openllm/_configuration.py:1122-1125 | a key with the generation prefix is consumed into the generation dictionary and not returned |
| Routing.ValidateClickTopOption | src/openllm/_configuration.py:1126-1128 | a key with only the model prefix is consumed to the top level with its value, never as `generation_config`, and not returned |
| Routing.ValidateClickOtherOption | src/openllm/_configuration.py:1130 | a key without the model prefix is returned unchanged |
| Routing.ClickThenConstructEnv | src/openllm/_configuration.py:1106-1130 | the arguments the click path produces never fail the dictionary check, and their generation arguments are exactly the generation options |
| Routing.Evolved | src/openllm/_configuration.py:1114-1115 | the keywords `attr.evolve` passes on are every current field plus every change, each change replacing the current value |
| Routing.ConstructEnvAsWritten | src/openllm/_configuration.py:1106-1115 | as the code reads: errs exactly when the split fails or a generation argument names no generation field; otherwise routes the current field values overridden by the primary arguments, with no `generation_config` |
| Routing.ConstructEnvDropsGeneration | src/openllm/_configuration.py:1106-1115 | as the code reads, the generation arguments never reach the rebuilt instance: without a `generation_config` keyword and without an own field named like a generation field, the instance's generation configuration gets no argument |
| Routing.ConstructEnvDropsTemperature | src/openllm/_configuration.py:1106-1115 | `temperature=0.2` is found by the split but does not reach the rebuilt instance |
| Routing.ConstructEnv | src/openllm/_configuration.py:1091-1115 | with line 1115 corrected (see "## Findings"): fails exactly on a non-dictionary `generation_config` or a generation argument naming no generation field; otherwise the result's generation configuration holds every generation argument and the instance's other generation values, and each accepted non-generation primary argument stays primary |
| Routing.ClickOptionReachesGeneration | src/openllm/_configuration.py:1117-1130 | through the corrected `model_construct_env` (see "## Findings"), each `<model>_generation_<x>` click option becomes field `x` of the constructed generation configuration |
| Routing.Structure | src/openllm/_configuration.py:1192-1218 | a non-dictionary input or `generation_config` is an error; own fields are picked out; top-level generation keys are merged over an explicit `generation_config`; extras are exactly the keys that are neither own fields nor generation arguments, and hold no generation field name |
| Routing.StructureKeepsExtras | src/openllm/_configuration.py:1214-1218 | the constructor call that follows routes nothing further into extras |
| Routing.StructureTopLevelWins | src/openllm/_configuration.py:1208-1211 | a generation key set both at top level and in `generation_config` takes the top-level value |
| Options.AttrsToOptions | src/openllm/_configuration.py:123-156 | missing `env` metadata is an error; the flag is `--x`, plus `/--no-x` exactly for booleans; the identifier is `<model>_<x>`, or `<model>_generation_<x>` for generation options, with `x` the underscored name; required iff no default; the default is normalised to None; help falls back to `(No description provided)` |
| Options.IdentifierPrefixes | src/openllm/_configuration.py:141-144 | generation identifiers start with `<model>_generation_`; primary identifiers start with `<model>_` and not with the generation prefix unless the underscored name does |
| Options.GenerationOptionRoundTrip | src/openllm/_configuration.py:141-142 | a generation option's value comes back from the click routing as that field of `generation_config` |
| Options.PrimaryOptionRoundTrip | src/openllm/_configuration.py:143-144 | a primary option's value comes back at top level under the underscored name, provided that name does not start with `generation_` |
| Options.PrimaryOptionCapturedByGeneration | src/openllm/_configuration.py:143-144 | a primary field whose underscored name starts with `generation_` is read back as a generation argument instead |

## Left out

- Code synthesis: `_compile_and_eval`, `_make_attr_tuple_class`, `_make_assignment_with_prefix_script`, `_make_init`/`_make_repr` wiring, and the `__repr__` patch. These generate Python code and add no behaviour beyond the field table.
- `base_attr_map` of `_collect_base_attrs`. It only feeds the generated initialiser.
- Real environment reads. The environment is the `env` parameter.
- Reading the JSON configuration variable in `model_construct_env`. It is a JSON parser. The instance it yields enters the model as its field values and generation values (`current`, `currentGeneration` of `Routing.ConstructEnv`).
- The two `attr.evolve` calls of `model_construct_env` are modelled by the keyword arguments they pass on (`Routing.Evolved`) and the routing of the `__init__` call that follows. The instance itself is then `Construct.Construct`'s business.
- The cattrs hooks and `model_dump`.
- The GPU probe and the `transformers.GenerationConfig` conversion. Both are external runtimes.
- Click and optgroup decorator application, `dantic.parse_type`, `allows_multiple`, the `typ` argument and the Union skip in `to_click_options`. These are library calls and typing reflection.
- Options.AttrsToOptions: the source tests `field.type is bool`; the model tests the annotation text `"bool"`. Generation fields come from a module with postponed annotations, where attrs keeps types as strings, so the source's check likely never fires for them. The model does not distinguish the two cases.
- Options.AttrsToOptions: `help` is the description when one is recorded. The source's `metadata.get` would also return a recorded `None`, which the model does not represent.
- `inflection.underscore` and `inflection.dasherize` are parameters with no properties. `Schema.GenDefaultModelConfig` states its name results in terms of them.
- `_has_own_attribute` and `t.get_type_hints`. Whether there is an own `GenerationConfig` block is an `Option` parameter. Annotations are taken as written.
- The float `ge`/`le` constraints of the generation fields. They are enforced by dantic, which is not part of this model.
- The `logger` warning. `Construct.Route` returns the set of ignored keys instead of logging it.
- Construct.Instantiate: keyword arguments are matched by field name. The generated initialiser uses each attribute's alias instead. After binding (line 950), an attribute's alias is its name without leading underscores exactly when its incoming alias was unset or empty, and `None` otherwise; an inherited attribute's incoming alias is the one its ancestor bound, so the alias alternates down a chain of subclasses. How attrs' initialiser generator treats a cleared alias is not part of this model.
- Schema.BaseGenerationConfig: the `description=` text of each generation field is not carried; every field has `description := None`. So `Options.AttrsToOptions` gives generation options the fallback help `(No description provided)`, where the command line shows the field's description.
- `__init__` merges the unaccepted keywords into a caller-supplied `__openllm_extras__` dictionary in place (lines 998-1001). The model returns the merged extras as a fresh map and does not represent that mutation of caller data.
- `structure_llm_config` pops `generation_config` from the caller's dictionary (line 1208) and merges into the caller's `generation_config` dictionary in place (line 1211). The model returns fresh maps and does not represent that mutation of caller data.
- Construct.Instantiate: type conversion and validation by the generated initialiser are not modelled. Values are stored as given.
- Schema.OwnAttrs: `dantic.Field` is not part of this model. A bare `Field()` is taken to default to `None`, not to be mandatory. The base `GenerationConfig` declares a bare field after defaulted ones, which attrs would reject if it were mandatory.
- Schema.BuildSchema: the per-field `env` metadata of inherited attributes keeps the ancestor's key, as in the source. Their default is bound through the current model's key. Neither is restated in its contract beyond `BuildFieldTable`.
- Strings use ASCII case mapping only. Unicode `str.upper` is not modelled.
- The error messages' wording and the sorting of missing-annotation names by counter. Errors carry the offending names as a set.

## Findings

| source | as written | input that shows it | evidently intended | confidence | as-written member | corrected member |
|---|---|---|---|---|---|---|
| src/openllm/_configuration.py:1113-1115 | line 1114 evolves `ncls.generation_config` with the generation arguments, then line 1115's `attr.evolve(ncls, **attrs)` rebuilds the instance through `__init__` with no `generation_config` and with every generation key already removed, so the new instance's generation configuration is built from no arguments | `model_construct_env(temperature=0.2)` on a class without a `temperature` field: the split yields `{temperature: 0.2}`, the rebuilt instance's generation configuration receives `{}` | the evolved generation configuration is passed on as the new instance's `generation_config` | not executed; medium, since it rests on attrs' documented `evolve`, which calls the class with the values of `attr.fields` (which never include `generation_config`) | Routing.ConstructEnvAsWritten, Routing.ConstructEnvDropsGeneration | Routing.ConstructEnv |

=== FILE: base_attrs.dfy ===
/**
 `_collect_base_attrs` (src/openllm/_configuration.py:457-485): the attributes
 a configuration class inherits from its ancestors.

 The ancestors are given as the `__attrs_attrs__` tables of `cls.__mro__[1:-1]`,
 nearest ancestor first, exactly as the MRO lists them; the walk visits them
 in reverse, from the root towards the class.
 */
module BaseAttrs {
  import opened Common
  import opened Fields

  /** What one ancestor contributes: its own attributes with free names, marked inherited. */
  function Contribution(table: seq<Attribute>, taken: set<string>): (r: seq<Attribute>)
    ensures forall x :: x in r <==>
      exists a :: a in table && !a.inherited && a.name !in taken && x == a.(inherited := true)
  {
    if table == [] then []
    else
      var head := if table[0].inherited || table[0].name in taken then [] else [table[0].(inherited := true)];
      assert forall a :: a in table <==> a == table[0] || a in table[1..];
      head + Contribution(table[1..], taken)
  }

  lemma {:induction false} ContributionAppend(a: seq<Attribute>, b: seq<Attribute>, taken: set<string>)
    ensures Contribution(a + b, taken) == Contribution(a, taken) + Contribution(b, taken)
    decreases |a|
  {
    if a == [] {
      assert a + b == b;
    } else {
      var h := if a[0].inherited || a[0].name in taken then [] else [a[0].(inherited := true)];
      assert (a + b)[0] == a[0];
      assert (a + b)[1..] == a[1..] + b;
      ContributionAppend(a[1..], b, taken);
      calc {
        Contribution(a + b, taken);
        h + Contribution(a[1..] + b, taken);
        h + (Contribution(a[1..], taken) + Contribution(b, taken));
        (h + Contribution(a[1..], taken)) + Contribution(b, taken);
      }
    }
  }

  /** `base_attrs` before de-duplication: every ancestor's contribution, root first. */
  function Candidates(mro: seq<seq<Attribute>>, taken: set<string>): (r: seq<Attribute>)
    ensures forall x :: x in r <==> exists i :: 0 <= i < |mro| && x in Contribution(mro[i], taken)
  {
    if mro == [] then []
    else
      var rest := Candidates(mro[1..], taken);
      assert forall i :: 1 <= i < |mro| ==> mro[i] == mro[1..][i - 1];
      rest + Contribution(mro[0], taken)
  }

  /** The position of the last attribute called `name`. */
  function LastIndex(s: seq<Attribute>, name: string): (j: nat)
    requires name in NameSet(s)
    ensures j < |s| && s[j].name == name
    ensures forall k :: j < k < |s| ==> s[k].name != name
  {
    if name in NameSet(s[1..]) then
      var j := LastIndex(s[1..], name);
      assert forall k :: 1 <= k < |s| ==> s[k] == s[1..][k - 1];
      1 + j
    else
      assert forall k :: 1 <= k < |s| ==> s[k] in s[1..];
      0
  }

  /**
   The de-duplication step: walking from the back, keep an attribute only if
   its name has not been seen yet.
   */
  function KeepLast(s: seq<Attribute>): seq<Attribute> {
    if s == [] then []
    else if s[0].name in NameSet(s[1..]) then KeepLast(s[1..])
    else [s[0]] + KeepLast(s[1..])
  }

  lemma NameSetCons(s: seq<Attribute>)
    requires s != []
    ensures NameSet(s) == {s[0].name} + NameSet(s[1..])
  {
    assert forall a :: a in s <==> a == s[0] || a in s[1..];
  }

  /** How the last position of a name moves when one attribute is put in front. */
  lemma LastIndexCons(s: seq<Attribute>)
    requires s != []
    ensures forall n :: n in NameSet(s[1..]) ==> n in NameSet(s) && LastIndex(s, n) == 1 + LastIndex(s[1..], n)
    ensures s[0].name !in NameSet(s[1..]) ==> LastIndex(s, s[0].name) == 0
  {
    NameSetCons(s);
  }

  lemma {:induction false} KeepLastSubset(s: seq<Attribute>)
    ensures forall x :: x in KeepLast(s) ==> x in s
  {
    if s != [] {
      KeepLastSubset(s[1..]);
    }
  }

  /** One attribute per name survives, and every name survives. */
  lemma {:induction false} KeepLastNames(s: seq<Attribute>)
    ensures NoDuplicateNames(KeepLast(s))
    ensures NameSet(KeepLast(s)) == NameSet(s)
  {
    if s != [] {
      var t := s[1..];
      var rt := KeepLast(t);
      KeepLastNames(t);
      NameSetCons(s);
      if s[0].name !in NameSet(t) {
        var r := [s[0]] + rt;
        assert r[1..] == rt;
        NameSetCons(r);
        forall i, j | 0 <= i < j < |r|
          ensures r[i].name != r[j].name
        {
          assert r[j] == rt[j - 1];
          if i > 0 {
            assert r[i] == rt[i - 1];
          } else {
            assert r[j] in rt;
          }
        }
      }
    }
  }

  /** The survivor of each name is its last occurrence. */
  lemma {:induction false} KeepLastPicksLast(s: seq<Attribute>)
    ensures forall x :: x in KeepLast(s) ==> x.name in NameSet(s) && x == s[LastIndex(s, x.name)]
  {
    if s != [] {
      var t := s[1..];
      KeepLastPicksLast(t);
      LastIndexCons(s);
      NameSetCons(s);
      forall x | x in KeepLast(s)
        ensures x.name in NameSet(s) && x == s[LastIndex(s, x.name)]
      {
        if x in KeepLast(t) {
          assert s[1 + LastIndex(t, x.name)] == t[LastIndex(t, x.name)];
        } else {
          assert x == s[0] && s[0].name !in NameSet(t);
        }
      }
    }
  }

  /** `LastIndexCons` at one name. */
  lemma LastIndexConsAt(s: seq<Attribute>, n: string)
    requires s != [] && n in NameSet(s[1..])
    ensures n in NameSet(s) && LastIndex(s, n) == 1 + LastIndex(s[1..], n)
  {
    NameSetCons(s);
  }

  /**
   The order of two survivors, by induction on the sequence with the two
   positions fixed; the two step lemmas below make the recursive calls.
   */
  lemma {:induction false} KeepLastOrderAt(s: seq<Attribute>, i: nat, j: nat)
    requires i < j < |KeepLast(s)|
    ensures KeepLast(s)[i].name in NameSet(s) && KeepLast(s)[j].name in NameSet(s)
    ensures LastIndex(s, KeepLast(s)[i].name) < LastIndex(s, KeepLast(s)[j].name)
    decreases |s|, 1
  {
    if s[0].name in NameSet(s[1..]) {
      KeepLastDropStep(s, i, j);
    } else if i > 0 {
      KeepLastKeepStep(s, i, j);
    } else {
      KeepLastHeadFirst(s, j);
    }
  }

  /** The step of `KeepLastOrderAt` when the head is shadowed and dropped. */
  lemma {:induction false} KeepLastDropStep(s: seq<Attribute>, i: nat, j: nat)
    requires s != [] && s[0].name in NameSet(s[1..])
    requires i < j < |KeepLast(s)|
    ensures KeepLast(s)[i].name in NameSet(s) && KeepLast(s)[j].name in NameSet(s)
    ensures LastIndex(s, KeepLast(s)[i].name) < LastIndex(s, KeepLast(s)[j].name)
    decreases |s|, 0
  {
    var t := s[1..];
    var rt := KeepLast(t);
    assert KeepLast(s) == rt;
    assert KeepLast(s)[i] == rt[i] && KeepLast(s)[j] == rt[j];
    KeepLastOrderAt(t, i, j);
    LastIndexConsAt(s, rt[i].name);
    LastIndexConsAt(s, rt[j].name);
  }

  /** The step of `KeepLastOrderAt` when the head survives and neither position is the head. */
  lemma {:induction false} KeepLastKeepStep(s: seq<Attribute>, i: nat, j: nat)
    requires s != [] && s[0].name !in NameSet(s[1..])
    requires 0 < i < j < |KeepLast(s)|
    ensures KeepLast(s)[i].name in NameSet(s) && KeepLast(s)[j].name in NameSet(s)
    ensures LastIndex(s, KeepLast(s)[i].name) < LastIndex(s, KeepLast(s)[j].name)
    decreases |s|, 0
  {
    var t := s[1..];
    var rt := KeepLast(t);
    assert KeepLast(s) == [s[0]] + rt;
    assert KeepLast(s)[i] == rt[i - 1] && KeepLast(s)[j] == rt[j - 1];
    KeepLastOrderAt(t, i - 1, j - 1);
    LastIndexConsAt(s, rt[j - 1].name);
    LastIndexConsAt(s, rt[i - 1].name);
  }

  /** A surviving head comes before every other survivor. */
  lemma KeepLastHeadFirst(s: seq<Attribute>, j: nat)
    requires s != [] && s[0].name !in NameSet(s[1..])
    requires 0 < j < |KeepLast(s)|
    ensures KeepLast(s)[0].name in NameSet(s) && KeepLast(s)[j].name in NameSet(s)
    ensures LastIndex(s, KeepLast(s)[0].name) < LastIndex(s, KeepLast(s)[j].name)
  {
    var t := s[1..];
    var rt := KeepLast(t);
    assert KeepLast(s) == [s[0]] + rt;
    assert KeepLast(s)[0] == s[0] && KeepLast(s)[j] == rt[j - 1];
    KeepLastSubset(t);
    assert rt[j - 1] in t;
    assert rt[j - 1].name in NameSet(t);
    LastIndexConsAt(s, rt[j - 1].name);
    NameSetCons(s);
  }

  /** Survivors appear in the order of their last occurrences. */
  lemma KeepLastOrder(s: seq<Attribute>)
    ensures forall x :: x in KeepLast(s) ==> x.name in NameSet(s)
    ensures forall i, j :: 0 <= i < j < |KeepLast(s)| ==>
              LastIndex(s, KeepLast(s)[i].name) < LastIndex(s, KeepLast(s)[j].name)
  {
    KeepLastSubset(s);
    forall i, j | 0 <= i < j < |KeepLast(s)|
      ensures LastIndex(s, KeepLast(s)[i].name) < LastIndex(s, KeepLast(s)[j].name)
    {
      KeepLastOrderAt(s, i, j);
    }
  }

  /** The attributes a class inherits: `filtered` as `_collect_base_attrs` returns it. */
  function BaseAttributes(mro: seq<seq<Attribute>>, taken: set<string>): (r: seq<Attribute>)
    ensures NoDuplicateNames(r)
    ensures forall x :: x in r ==> x.inherited && x.name !in taken
    ensures forall x :: x in r ==>
      exists i, a :: 0 <= i < |mro| && a in mro[i] && !a.inherited && x == a.(inherited := true)
    ensures NameSet(r) == NameSet(Candidates(mro, taken))
    ensures forall x :: x in r ==> x == Candidates(mro, taken)[LastIndex(Candidates(mro, taken), x.name)]
    ensures forall i, j :: 0 <= i < j < |r| ==>
      LastIndex(Candidates(mro, taken), r[i].name) < LastIndex(Candidates(mro, taken), r[j].name)
  {
    var c := Candidates(mro, taken);
    KeepLastNames(c);
    KeepLastPicksLast(c);
    KeepLastOrder(c);
    KeepLastSubset(c);
    KeepLast(c)
  }

  /** The first loop of `_collect_base_attrs`: contributions from the root ancestor to the nearest. */
  method GatherCandidates(mro: seq<seq<Attribute>>, taken: set<string>) returns (baseAttrs: seq<Attribute>)
    ensures baseAttrs == Candidates(mro, taken)
  {
    baseAttrs := [];
    var i := |mro|;
    while i > 0
      invariant 0 <= i <= |mro|
      invariant baseAttrs == Candidates(mro[i..], taken)
    {
      i := i - 1;
      var table := mro[i];
      var j := 0;
      while j < |table|
        invariant 0 <= j <= |table|
        invariant baseAttrs == Candidates(mro[i + 1..], taken) + Contribution(table[..j], taken)
      {
        var a := table[j];
        ContributionAppend(table[..j], [a], taken);
        assert table[..j + 1] == table[..j] + [a];
        assert Contribution([a], taken) == if a.inherited || a.name in taken then [] else [a.(inherited := true)];
        if !(a.inherited || a.name in taken) {
          baseAttrs := baseAttrs + [a.(inherited := true)];
        }
        j := j + 1;
      }
      assert table[..j] == table;
      assert mro[i..][1..] == mro[i + 1..];
      assert Candidates(mro[i..], taken) == Candidates(mro[i + 1..], taken) + Contribution(table, taken);
    }
    assert mro[0..] == mro;
  }

  /** The second loop: scan backwards, keeping an attribute only on the first sighting of its name. */
  method DropShadowed(baseAttrs: seq<Attribute>) returns (filtered: seq<Attribute>)
    ensures filtered == KeepLast(baseAttrs)
  {
    filtered := [];
    var seen: set<string> := {};
    var k := |baseAttrs|;
    while k > 0
      invariant 0 <= k <= |baseAttrs|
      invariant filtered == KeepLast(baseAttrs[k..])
      invariant seen == NameSet(baseAttrs[k..])
    {
      k := k - 1;
      var a := baseAttrs[k];
      assert baseAttrs[k..][1..] == baseAttrs[k + 1..];
      NameSetCons(baseAttrs[k..]);
      if a.name !in seen {
        filtered := [a] + filtered;
        seen := seen + {a.name};
      }
    }
    assert baseAttrs[0..] == baseAttrs;
  }

  /** `_collect_base_attrs`: both loops, yielding exactly the inherited attributes. */
  method CollectBaseAttrs(mro: seq<seq<Attribute>>, taken: set<string>) returns (filtered: seq<Attribute>)
    ensures filtered == BaseAttributes(mro, taken)
  {
    var baseAttrs := GatherCandidates(mro, taken);
    filtered := DropShadowed(baseAttrs);
  }
}

=== FILE: common.dfy ===
/**
 Shared vocabulary of the configuration engine: an optional value, a result
 carrying the engine's error kinds, and the few string operations the Python
 code performs with `str` methods (`startswith`, `upper`, `lower`,
 `lstrip("_")`, `replace`).
 */
module Common {

  /** Python's `None`-or-value, as returned by `dict.get`. */
  datatype Option<+T> = None | Some(value: T) {

    /** `first_not_none(x, default=d)`: the value if present, else `d`. */
    function GetOr(default: T): T {
      match this
      case Some(v) => v
      case None => default
    }
  }

  /** The exceptions the engine raises, one constructor per failure. */
  datatype Error =
    | MissingDefaultId                       // "'default_id' is required under '__config__'."
    | MissingModelIds                        // "'model_ids' is required under '__config__'."
    | MissingAnnotation(names: set<string>)  // MissingAnnotationAttributeError
    | InvalidFieldOrder(field: string)       // "No mandatory attributes allowed after ..."
    | ExpectedDictionary                     // "Expected a dictionary, but got ..."
    | UnexpectedArguments(names: set<string>) // an initialiser got unknown keywords
    | MissingArguments(names: set<string>)  // an initialiser lacks mandatory keywords
    | MissingEnvMetadata(field: string)      // `field.metadata["env"]` raises KeyError

  datatype Result<+T> = Ok(value: T) | Err(error: Error)

  predicate StartsWith(s: string, prefix: string) {
    |prefix| <= |s| && s[..|prefix|] == prefix
  }

  lemma PrefixSplit(s: string, prefix: string)
    requires StartsWith(s, prefix)
    ensures s == prefix + s[|prefix|..]
  {
  }

  lemma StartsWithConcat(prefix: string, rest: string)
    ensures StartsWith(prefix + rest, prefix)
    ensures (prefix + rest)[|prefix|..] == rest
  {
  }

  /** A prefix relation is transitive: a key that starts with `p + q` starts with `p`. */
  lemma StartsWithLonger(s: string, p: string, q: string)
    requires StartsWith(s, p + q)
    ensures StartsWith(s, p)
  {
    assert s[..|p|] == (s[..|p + q|])[..|p|];
  }

  /** Stripping a common prefix loses no information. */
  lemma StripInjective(prefix: string)
    ensures forall a: string, b: string ::
      StartsWith(a, prefix) && StartsWith(b, prefix) && a[|prefix|..] == b[|prefix|..] ==> a == b
  {
    forall a: string, b: string | StartsWith(a, prefix) && StartsWith(b, prefix) && a[|prefix|..] == b[|prefix|..]
      ensures a == b
    {
      PrefixSplit(a, prefix);
      PrefixSplit(b, prefix);
    }
  }

  /** `str.upper` restricted to ASCII letters. */
  function UpperChar(c: char): char {
    if 'a' <= c <= 'z' then (c as int - 32) as char else c
  }

  /** `str.lower` restricted to ASCII letters. */
  function LowerChar(c: char): char {
    if 'A' <= c <= 'Z' then (c as int + 32) as char else c
  }

  function Upper(s: string): string {
    seq(|s|, i requires 0 <= i < |s| => UpperChar(s[i]))
  }

  function Lower(s: string): string {
    seq(|s|, i requires 0 <= i < |s| => LowerChar(s[i]))
  }

  lemma UpperConcat(a: string, b: string)
    ensures Upper(a + b) == Upper(a) + Upper(b)
  {
  }

  /** `s.lstrip("_")`: the longest suffix of `s` that does not start with `_`. */
  function LStripUnderscores(s: string): (r: string)
    ensures |r| <= |s| && r == s[|s| - |r|..]
    ensures forall i :: 0 <= i < |s| - |r| ==> s[i] == '_'
    ensures r == [] || r[0] != '_'
  {
    if |s| > 0 && s[0] == '_' then LStripUnderscores(s[1..]) else s
  }

  /** `s.replace(pattern, replacement)`: every non-overlapping occurrence, scanning left to right. */
  function ReplaceAll(s: string, pattern: string, replacement: string): string
    requires |pattern| > 0
    decreases |s|
  {
    if |s| < |pattern| then s
    else if s[..|pattern|] == pattern then replacement + ReplaceAll(s[|pattern|..], pattern, replacement)
    else [s[0]] + ReplaceAll(s[1..], pattern, replacement)
  }
}

=== FILE: construct.dfy ===
/**
 Instance construction, `LLMConfig.__init__`
 (src/openllm/_configuration.py:988-1044): keyword input is split into
 extras, generation arguments and primary arguments, then the generation
 class and the attrs initialiser are called with their share.
 */
module Construct {
  import opened Common
  import opened Values
  import opened Fields
  import opened Schema

  /** Names the initialiser accepts as keywords: fields with `init` set. */
  function InitNames(fields: seq<Attribute>): set<string> {
    set a | a in fields && a.init :: a.name
  }

  /** Names the initialiser cannot do without: `init` set and no default. */
  function MandatoryNames(fields: seq<Attribute>): set<string> {
    set a | a in fields && a.init && a.default.Nothing? :: a.name
  }

  /** The first field with a given name (the one attribute of that name in a field table). */
  function FieldNamed(fields: seq<Attribute>, name: string): (r: Option<Attribute>)
    ensures r.Some? <==> name in NameSet(fields)
    ensures r.Some? ==> r.value in fields && r.value.name == name
  {
    if fields == [] then None
    else if fields[0].name == name then Some(fields[0])
    else
      assert forall a :: a in fields[1..] ==> a in fields;
      assert forall a :: a in fields && a != fields[0] ==> a in fields[1..];
      FieldNamed(fields[1..], name)
  }

  /** Whether the initialiser sets `name`: given as an argument, or defaulted. */
  predicate IsSet(fields: seq<Attribute>, args: map<string, Value>, name: string) {
    name in args || (FieldNamed(fields, name).Some? && FieldNamed(fields, name).value.default.Given?)
  }

  /**
   An attrs initialiser called with keyword arguments only. An unknown
   keyword is reported first, then any missing mandatory one; otherwise
   each field takes its argument when given and its default when not.
   */
  function Instantiate(fields: seq<Attribute>, args: map<string, Value>): (r: Result<map<string, Value>>)
    ensures r.Err? <==> !(args.Keys <= InitNames(fields)) || !(MandatoryNames(fields) <= args.Keys)
    ensures !(args.Keys <= InitNames(fields)) ==> r == Err(UnexpectedArguments(args.Keys - InitNames(fields)))
    ensures args.Keys <= InitNames(fields) && !(MandatoryNames(fields) <= args.Keys) ==>
              r == Err(MissingArguments(MandatoryNames(fields) - args.Keys))
    ensures r.Ok? ==> forall k :: k in args ==> k in r.value && r.value[k] == args[k]
    ensures r.Ok? ==> forall a :: a in fields && a.name !in args && a.default.Given? && FieldNamed(fields, a.name) == Some(a)
                                  ==> a.name in r.value && r.value[a.name] == a.default.value
    ensures r.Ok? ==> r.value.Keys <= NameSet(fields)
  {
    if !(args.Keys <= InitNames(fields)) then Err(UnexpectedArguments(args.Keys - InitNames(fields)))
    else if !(MandatoryNames(fields) <= args.Keys) then Err(MissingArguments(MandatoryNames(fields) - args.Keys))
    else
      Ok(map n | n in NameSet(fields) && IsSet(fields, args, n) ::
           if n in args then args[n] else FieldNamed(fields, n).value.default.value)
  }

  /** Where each keyword argument of `__init__` goes. */
  datatype Routing = Routing(
    primary: map<string, Value>,     // passed to `__attrs_init__`
    generation: map<string, Value>,  // passed to the generation class
    extras: map<string, Value>,      // `__openllm_extras__`
    ignored: set<string>)            // named in the "keys are ignored" warning

  /** The keyword arguments outside the accepted keys. */
  function Unaccepted(accepted: set<string>, kwargs: map<string, Value>): map<string, Value> {
    map k | k in kwargs && k !in accepted :: kwargs[k]
  }

  /**
   Lines 996-1041. `accepted` is `__openllm_accepted_keys__`,
   `generationNames` the generation class's field names.
   */
  function Route(accepted: set<string>, generationNames: set<string>, kwargs: map<string, Value>,
                 generationConfig: Option<map<string, Value>>, extras: Option<map<string, Value>>): (r: Routing)
    // Extras: the caller's mapping (empty by default) deep-merged with the unaccepted keys.
    ensures r.extras == MergeMaps(extras.GetOr(map[]), Unaccepted(accepted, kwargs))
    // Primary arguments: accepted, non-None, unclaimed by extras or generation.
    ensures forall k :: k in r.primary ==>
      && k in kwargs && r.primary[k] == kwargs[k] && kwargs[k] != Null
      && k in accepted && k !in generationNames
      && k !in r.extras && k !in r.generation && k !in r.ignored
    ensures forall k :: (k in kwargs && k in accepted && k !in generationNames && kwargs[k] != Null
                         && k !in r.extras && k !in r.generation) ==> k in r.primary
    // Generation arguments: the remaining generation-field keys, or the explicit mapping.
    ensures generationConfig.None? ==>
      && r.ignored == {}
      && r.generation == map k | k in kwargs && k in generationNames && k !in r.extras && kwargs[k] != Null :: kwargs[k]
    ensures generationConfig.Some? ==>
      && r.generation == generationConfig.value
      && r.ignored == set k | k in kwargs && k in generationNames && k !in r.extras && kwargs[k] != Null
    // Every keyword lands somewhere, unless it was None.
    ensures forall k :: k in kwargs ==>
      k in r.extras || kwargs[k] == Null || k in r.primary || k in r.generation || k in r.ignored
  {
    var mergedExtras := MergeMaps(extras.GetOr(map[]), Unaccepted(accepted, kwargs));
    var attrs := Retained(kwargs, mergedExtras);
    var generationKeys := attrs.Keys * generationNames;
    var generation := if generationConfig.None? then Restrict(attrs, generationNames) else generationConfig.value;
    var ignored := if generationConfig.None? then {} else generationKeys;
    Routing(Without(attrs, generationKeys + generation.Keys), generation, mergedExtras, ignored)
  }

  /**
   Lines 1002-1006: the keywords still passed on, neither claimed by extras
   nor `None`. A named step of `Route` that keeps its proof small; it adds
   nothing to `Route`'s contract.
   */
  function Retained(kwargs: map<string, Value>, extras: map<string, Value>): (m: map<string, Value>)
    ensures forall k :: k in m <==> k in kwargs && k !in extras && kwargs[k] != Null
    ensures forall k :: k in m ==> m[k] == kwargs[k]
  {
    map k | k in kwargs && k !in extras && kwargs[k] != Null :: kwargs[k]
  }

  /** A constructed configuration: primary values, generation values and extras. */
  datatype ConfigInstance = ConfigInstance(
    values: map<string, Value>,
    generation: map<string, Value>,
    extras: map<string, Value>)

  /** The instance, and the keys the collision warning named. */
  datatype Constructed = Constructed(instance: ConfigInstance, ignored: set<string>)

  /** `LLMConfig.__init__` for a registered schema. */
  function Construct(s: Schema, kwargs: map<string, Value>, generationConfig: Option<map<string, Value>>,
                     extras: Option<map<string, Value>>): (r: Result<Constructed>)
    ensures var routing := Route(AcceptedKeys(s), NameSet(s.generation), kwargs, generationConfig, extras);
      r.Ok? <==> Instantiate(s.generation, routing.generation).Ok? && Instantiate(s.attrs, routing.primary).Ok?
    ensures r.Ok? ==>
      var routing := Route(AcceptedKeys(s), NameSet(s.generation), kwargs, generationConfig, extras);
      && r.value.instance.extras == routing.extras
      && r.value.ignored == routing.ignored
      && (forall k :: k in routing.primary ==> k in r.value.instance.values && r.value.instance.values[k] == kwargs[k])
      && (forall k :: k in routing.generation ==>
            k in r.value.instance.generation && r.value.instance.generation[k] == routing.generation[k])
    // Fields given no argument are what the initialisers make of them: their (environment-bound) defaults.
    ensures r.Ok? ==>
      var routing := Route(AcceptedKeys(s), NameSet(s.generation), kwargs, generationConfig, extras);
      && r.value.instance.generation == Instantiate(s.generation, routing.generation).value
      && r.value.instance.values == Instantiate(s.attrs, routing.primary).value
  {
    var routing := Route(AcceptedKeys(s), NameSet(s.generation), kwargs, generationConfig, extras);
    match Instantiate(s.generation, routing.generation)
    case Err(e) => Err(e)
    case Ok(generation) =>
      match Instantiate(s.attrs, routing.primary)
      case Err(e) => Err(e)
      case Ok(values) => Ok(Constructed(ConfigInstance(values, generation, routing.extras), routing.ignored))
  }

  /**
   Precedence at construction: an explicit own-field argument overrides the
   (environment-bound) default; without one, the default is the value.
   */
  lemma ConstructPrecedence(s: Schema, kwargs: map<string, Value>, a: Attribute)
    requires NoDuplicateNames(s.attrs) && a in s.attrs && a.name in s.ownNames
    requires a.name !in NameSet(s.generation)
    requires Construct(s, kwargs, None, None).Ok?
    ensures var inst := Construct(s, kwargs, None, None).value.instance;
      && (a.name in kwargs && kwargs[a.name] != Null ==> inst.values[a.name] == kwargs[a.name])
      && (a.name !in kwargs && a.default.Given? ==> inst.values[a.name] == a.default.value)
  {
    var routing := Route(AcceptedKeys(s), NameSet(s.generation), kwargs, None, None);
    var values := Instantiate(s.attrs, routing.primary).value;
    assert a.name in AcceptedKeys(s);
    if a.name in kwargs && kwargs[a.name] != Null {
      assert Unaccepted(AcceptedKeys(s), kwargs).Keys == {} || a.name !in Unaccepted(AcceptedKeys(s), kwargs);
      assert a.name !in routing.extras;
      assert a.name in routing.primary;
    }
    if a.name !in kwargs && a.default.Given? {
      assert a.name !in routing.primary;
      var f := FieldNamed(s.attrs, a.name).value;
      assert f == a by {
        var i :| 0 <= i < |s.attrs| && s.attrs[i] == f;
        var j :| 0 <= j < |s.attrs| && s.attrs[j] == a;
      }
    }
  }

  /**
   At the constructor: a keyword the class does not accept is kept in the
   instance's extras, and a non-None generation field keyword becomes that
   field of the instance's generation configuration.
   */
  lemma ConstructRoutesKeywords(s: Schema, kwargs: map<string, Value>, k: string)
    requires k in kwargs
    ensures var r := Construct(s, kwargs, None, None);
      r.Ok? ==>
      && (k !in AcceptedKeys(s) ==> k in r.value.instance.extras && r.value.instance.extras[k] == kwargs[k])
      && (k in NameSet(s.generation) && kwargs[k] != Null ==>
            k in r.value.instance.generation && r.value.instance.generation[k] == kwargs[k])
  {
    var routing := Route(AcceptedKeys(s), NameSet(s.generation), kwargs, None, None);
    var u := Unaccepted(AcceptedKeys(s), kwargs);
    MergeIntoEmpty(u);
    if k in NameSet(s.generation) && kwargs[k] != Null {
      assert k in AcceptedKeys(s);
      assert k !in routing.extras;
      assert k in routing.generation;
    }
  }

  /**
   A keyword outside both field tables goes to extras, a generation field
   name goes to the generation class, and an own field name stays primary.
   */
  lemma RouteExample()
    ensures var r := Route(ExampleAccepted(), {"temperature"}, ExampleKwargs(), None, None);
      && r.extras == map["foo" := Int(1)]
      && r.generation == map["temperature" := Real(0.2)]
      && r.primary == map["max_tokens" := Int(8)]
      && r.ignored == {}
  {
    RouteExampleExtras();
    RouteExampleGeneration();
    RouteExamplePrimary();
  }

  function ExampleAccepted(): set<string> { {"max_tokens", "temperature"} }

  function ExampleKwargs(): map<string, Value> {
    map["temperature" := Real(0.2), "foo" := Int(1), "max_tokens" := Int(8)]
  }

  lemma RouteExampleExtras()
    ensures Route(ExampleAccepted(), {"temperature"}, ExampleKwargs(), None, None).extras == map["foo" := Int(1)]
  {
    var u := Unaccepted(ExampleAccepted(), ExampleKwargs());
    assert u.Keys == {"foo"};
    assert u == map["foo" := Int(1)];
    MergeIntoEmpty(u);
  }

  lemma RouteExampleRetained()
    ensures Retained(ExampleKwargs(), map["foo" := Int(1)]).Keys == {"temperature", "max_tokens"}
  {
    assert "foo" != "temperature" && "foo" != "max_tokens";
  }

  lemma RouteExampleGeneration()
    ensures Route(ExampleAccepted(), {"temperature"}, ExampleKwargs(), None, None).generation
            == map["temperature" := Real(0.2)]
  {
    RouteExampleExtras();
    RouteExampleRetained();
    var r := Route(ExampleAccepted(), {"temperature"}, ExampleKwargs(), None, None);
    assert r.generation.Keys == {"temperature"};
  }

  lemma RouteExamplePrimary()
    ensures Route(ExampleAccepted(), {"temperature"}, ExampleKwargs(), None, None).primary == map["max_tokens" := Int(8)]
  {
    RouteExampleExtras();
    RouteExampleRetained();
    var r := Route(ExampleAccepted(), {"temperature"}, ExampleKwargs(), None, None);
    assert r.primary.Keys == {"max_tokens"};
  }

  /**
   A generation field given both at top level and through an explicit
   `generation_config` mapping: the mapping is used whole and the top-level
   key is only reported.
   */
  lemma RouteCollisionExample()
    ensures var r := Route({"max_tokens", "temperature"}, {"temperature"},
                           map["temperature" := Real(0.2)], Some(map["top_k" := Int(5)]), None);
      && r.generation == map["top_k" := Int(5)]
      && r.ignored == {"temperature"}
      && r.primary == map[]
  {
    var kwargs := map["temperature" := Real(0.2)];
    assert Unaccepted({"max_tokens", "temperature"}, kwargs) == map[];
    var r := Route({"max_tokens", "temperature"}, {"temperature"}, kwargs, Some(map["top_k" := Int(5)]), None);
    assert r.extras == map[];
    assert "temperature" in r.ignored;
  }
}

=== FILE: fields.dfy ===
/**
 Field records (the parts of `attr.Attribute` the engine reads or writes),
 environment-variable keys, and the `ClassVar` annotation test.
 */
module Fields {
  import opened Common
  import opened Values

  /** An attribute's default: `attr.NOTHING` (mandatory) or a value. */
  datatype Default = Nothing | Given(value: Value)

  datatype Attribute = Attribute(
    name: string,
    typ: string,                 // the annotation as written, e.g. "int", "bool", "t.List[int]"
    default: Default,
    init: bool,
    kwOnly: bool,
    inherited: bool,
    alias: Option<string>,
    env: Option<string>,         // metadata["env"]
    description: Option<string>) // metadata["description"]

  function Names(attrs: seq<Attribute>): seq<string> {
    seq(|attrs|, i requires 0 <= i < |attrs| => attrs[i].name)
  }

  function NameSet(attrs: seq<Attribute>): set<string> {
    set a | a in attrs :: a.name
  }

  predicate NoDuplicateNames(attrs: seq<Attribute>) {
    forall i, j :: 0 <= i < j < |attrs| ==> attrs[i].name != attrs[j].name
  }

  /** `field_env_key`: the variable that overrides a primary field's default. */
  function FieldEnvKey(modelName: string, name: string): string {
    "OPENLLM_" + Upper(modelName) + "_" + Upper(name)
  }

  /** The variable that overrides a generation field's default. */
  function GenerationEnvKey(modelName: string, name: string): string {
    "OPENLLM_" + Upper(modelName) + "_GENERATION_" + Upper(name)
  }

  /** `os.environ.get(key, fallback)` used as a default: a set variable wins, as a string. */
  function EnvDefault(env: map<string, string>, key: string, fallback: Default): Default {
    if key in env then Given(Str(env[key])) else fallback
  }

  /**
   Within one model, two primary fields share an environment variable exactly
   when their names agree up to case.
   */
  lemma FieldEnvKeyInjective(modelName: string, a: string, b: string)
    ensures FieldEnvKey(modelName, a) == FieldEnvKey(modelName, b) <==> Upper(a) == Upper(b)
  {
    var p := "OPENLLM_" + Upper(modelName) + "_";
    assert FieldEnvKey(modelName, a) == p + Upper(a);
    assert FieldEnvKey(modelName, b) == p + Upper(b);
    if p + Upper(a) == p + Upper(b) {
      assert Upper(a) == (p + Upper(a))[|p|..];
    }
  }

  /**
   A generation field `x` reads the same variable as a primary field named
   `generation_x` would: the generation key is the primary key of the
   prefixed name.
   */
  lemma GenerationKeyIsPrefixedFieldKey(modelName: string, name: string)
    ensures GenerationEnvKey(modelName, name) == FieldEnvKey(modelName, "generation_" + name)
  {
    UpperConcat("generation_", name);
    assert Upper("generation_") == "GENERATION_";
  }

  const ClassVarPrefixes: seq<string> := ["typing.ClassVar", "t.ClassVar", "ClassVar", "typing_extensions.ClassVar"]

  predicate IsQuote(c: char) {
    c == '\'' || c == '"'
  }

  /** `annot[1:-1]` when the annotation starts and ends with a quote character. */
  function Unquote(annot: string): string {
    if |annot| > 0 && IsQuote(annot[0]) && IsQuote(annot[|annot| - 1]) then
      (if |annot| >= 2 then annot[1..|annot| - 1] else "")
    else annot
  }

  predicate HasClassVarPrefix(s: string) {
    exists p :: p in ClassVarPrefixes && StartsWith(s, p)
  }

  /** `_is_class_var`: the prefix test applied after stripping one pair of quotes. */
  predicate IsClassVar(annot: string)
    // A quoted annotation never matches as it stands: every prefix starts with a letter.
    ensures IsClassVar(annot) <==>
      if |annot| > 0 && IsQuote(annot[0]) && IsQuote(annot[|annot| - 1])
      then |annot| >= 2 && HasClassVarPrefix(annot[1..|annot| - 1])
      else HasClassVarPrefix(annot)
  {
    HasClassVarPrefix(Unquote(annot))
  }

  /**
   Quoting an annotation does not change the verdict, and the two quote
   characters need not match.
   */
  lemma IsClassVarQuoted(s: string, open: char, close: char)
    requires IsQuote(open) && IsQuote(close)
    ensures IsClassVar([open] + s + [close]) <==> HasClassVarPrefix(s)
  {
    var q := [open] + s + [close];
    assert q[1..|q| - 1] == s;
  }

  lemma IsClassVarPlainExample()
    ensures IsClassVar("t.ClassVar[int]")
  {
    assert StartsWith("t.ClassVar[int]", ClassVarPrefixes[1]);
  }

  /** Only a prefix counts: a `ClassVar` nested inside another annotation is a field. */
  lemma IsClassVarNestedExample()
    ensures !IsClassVar("t.Optional[t.ClassVar[int]]")
  {
    var s := "t.Optional[t.ClassVar[int]]";
    assert Unquote(s) == s;
    assert s[2] == 'O';
    forall p | p in ClassVarPrefixes
      ensures !StartsWith(s, p)
    {
      assert p[0] == 't' ==> p[2] != 'O';
    }
  }
}

=== FILE: options.dfy ===
/**
 The command-line option derived from one field, `attrs_to_options`
 (src/openllm/_configuration.py:123-154), reduced to the descriptor it
 builds, and how its identifier comes back through `model_validate_click`.
 */
module Options {
  import opened Common
  import opened Values
  import opened Fields
  import opened Schema
  import opened Routing

  const NoDescription := "(No description provided)"

  /** The arguments given to `optgroup.option` that the engine itself computes. */
  datatype OptionDescriptor = OptionDescriptor(
    identifier: string,  // the click parameter name
    flags: string,       // "--x", or "--x/--no-x" for a boolean field
    required: bool,
    default: Value,      // `Null` stands for click's `default=None`
    help: string,
    envvar: string)

  /** The click identifier: `<model>_<x>`, or `<model>_generation_<x>` for a generation field. */
  function Identifier(modelName: string, underscored: string, suffixGeneration: bool): string {
    if suffixGeneration then modelName + "_generation_" + underscored else modelName + "_" + underscored
  }

  /**
   `attrs_to_options(name, field, model_name, suffix_generation=...)`: fails
   when the field carries no `env` metadata; `name` goes through the
   inflection functions for the flag and the identifier.
   */
  function AttrsToOptions(name: string, field: Attribute, modelName: string, suffixGeneration: bool,
                          inflection: Inflection): (r: Result<OptionDescriptor>)
    ensures r.Err? <==> field.env.None?
    ensures r.Err? ==> r.error == MissingEnvMetadata(name)
    ensures r.Ok? ==> r.value.envvar == field.env.value
    ensures r.Ok? ==> (r.value.required <==> field.default.Nothing?)
    ensures r.Ok? ==> (r.value.default == Null <==> field.default.Nothing? || field.default == Given(Null))
    ensures r.Ok? && field.default.Given? ==> r.value.default == field.default.value
    ensures r.Ok? ==>
      var flag := "--" + inflection.dasherize(name);
      && StartsWith(r.value.flags, flag)
      && (field.typ == "bool" <==> r.value.flags != flag)
      && (field.typ == "bool" ==> r.value.flags[|flag|..] == "/--no-" + inflection.dasherize(name))
    ensures r.Ok? ==>
      r.value.identifier == modelName + (if suffixGeneration then "_generation_" else "_") + inflection.underscore(name)
    ensures r.Ok? ==> StartsWith(r.value.identifier, modelName + "_")
    ensures r.Ok? && !StartsWith(inflection.underscore(name), "generation_") ==>
      (suffixGeneration <==> StartsWith(r.value.identifier, modelName + "_generation_"))
    ensures r.Ok? ==> r.value.help == (if field.description.Some? then field.description.value else NoDescription)
  {
    if field.env.None? then Err(MissingEnvMetadata(name))
    else
      var dasherized := inflection.dasherize(name);
      var underscored := inflection.underscore(name);
      var flag := "--" + dasherized;
      var flags := if field.typ == "bool" then flag + "/--no-" + dasherized else flag;
      assert field.typ == "bool" ==> |flags| > |flag|;
      StartsWithConcat(flag, "/--no-" + dasherized);
      var identifier := Identifier(modelName, underscored, suffixGeneration);
      IdentifierPrefixes(modelName, underscored, suffixGeneration);
      Ok(OptionDescriptor(
           identifier,
           flags,
           field.default.Nothing?,
           if field.default.Given? then field.default.value else Null,
           field.description.GetOr(NoDescription),
           field.env.value))
  }

  lemma IdentifierPrefixes(modelName: string, underscored: string, suffixGeneration: bool)
    ensures StartsWith(Identifier(modelName, underscored, suffixGeneration), modelName + "_")
    ensures suffixGeneration ==> StartsWith(Identifier(modelName, underscored, suffixGeneration), modelName + "_generation_")
    ensures !suffixGeneration && !StartsWith(underscored, "generation_") ==>
      !StartsWith(Identifier(modelName, underscored, suffixGeneration), modelName + "_generation_")
  {
    var p := modelName + "_";
    assert modelName + "_generation_" == p + "generation_";
    if suffixGeneration {
      assert Identifier(modelName, underscored, true) == p + ("generation_" + underscored);
      StartsWithConcat(p + "generation_", underscored);
      StartsWithLonger(Identifier(modelName, underscored, true), p, "generation_");
    } else {
      StartsWithConcat(p, underscored);
      StartsWithAfterPrefix(p, underscored, "generation_");
    }
  }

  /**
   A generation option's value, passed back under its identifier, lands in
   the `generation_config` dictionary under the underscored field name.
   */
  lemma GenerationOptionRoundTrip(name: string, field: Attribute, modelName: string, inflection: Inflection,
                                  attrs: map<string, Value>)
    requires AttrsToOptions(name, field, modelName, true, inflection).Ok?
    requires AttrsToOptions(name, field, modelName, true, inflection).value.identifier in attrs
    ensures var id := AttrsToOptions(name, field, modelName, true, inflection).value.identifier;
      var generation := ValidateClick(modelName, attrs).llmConfigAttrs[GenerationConfigKey].fields;
      && inflection.underscore(name) in generation
      && generation[inflection.underscore(name)] == attrs[id]
      && id !in ValidateClick(modelName, attrs).remaining
  {
    var u := inflection.underscore(name);
    assert modelName + "_generation_" + u in attrs;
    IdentifierPrefixes(modelName, u, true);
  }

  /**
   A primary option's value comes back as the top-level argument of the
   same name, provided the underscored name does not itself begin with
   `generation_`.
   */
  lemma PrimaryOptionRoundTrip(name: string, field: Attribute, modelName: string, inflection: Inflection,
                               attrs: map<string, Value>)
    requires AttrsToOptions(name, field, modelName, false, inflection).Ok?
    requires AttrsToOptions(name, field, modelName, false, inflection).value.identifier in attrs
    requires !StartsWith(inflection.underscore(name), "generation_")
    ensures var id := AttrsToOptions(name, field, modelName, false, inflection).value.identifier;
      var top := ValidateClick(modelName, attrs).llmConfigAttrs;
      && inflection.underscore(name) in top
      && top[inflection.underscore(name)] == attrs[id]
      && id !in ValidateClick(modelName, attrs).remaining
  {
    var u := inflection.underscore(name);
    var p := modelName + "_";
    assert p + u in attrs;
    assert StartsWith(GenerationConfigKey, "generation_");
    IdentifierPrefixes(modelName, u, false);
  }

  /**
   The other side of that proviso: a primary field whose underscored name
   begins with `generation_` is read back as a generation argument, and
   no top-level argument of its name is produced (a field named
   `generation_config` finds the generation dictionary in its place).
   */
  lemma PrimaryOptionCapturedByGeneration(name: string, field: Attribute, modelName: string,
                                          inflection: Inflection, attrs: map<string, Value>)
    requires AttrsToOptions(name, field, modelName, false, inflection).Ok?
    requires AttrsToOptions(name, field, modelName, false, inflection).value.identifier in attrs
    requires StartsWith(inflection.underscore(name), "generation_")
    ensures var u := inflection.underscore(name);
      var r := ValidateClick(modelName, attrs);
      && (u in r.llmConfigAttrs ==> u == GenerationConfigKey)
      && u[|"generation_"|..] in r.llmConfigAttrs[GenerationConfigKey].fields
  {
    var u := inflection.underscore(name);
    var p := modelName + "_";
    var rest := u[|"generation_"|..];
    assert AttrsToOptions(name, field, modelName, false, inflection).value.identifier == p + u;
    PrefixSplit(u, "generation_");
    assert p + u == modelName + "_generation_" + rest;
    var r := ValidateClick(modelName, attrs);
    assert rest in r.llmConfigAttrs[GenerationConfigKey].fields;
  }
}

=== FILE: routing.dfy ===
/**
 The three entry points that turn outside input into constructor arguments:
 the keyword split of `model_construct_env`, the click-identifier routing of
 `model_validate_click`, and `structure_llm_config` for dictionaries
 (src/openllm/_configuration.py:1087-1130, 1192-1218).
 */
module Routing {
  import opened Common
  import opened Values
  import opened Fields
  import opened Schema
  import opened Construct

  const GenerationConfigKey := "generation_config"

  /** The keys of `attrs` that begin with `prefix`, with the prefix removed. */
  function StripPrefix(attrs: map<string, Value>, prefix: string): (m: map<string, Value>)
    ensures forall s :: s in m <==> prefix + s in attrs
    ensures forall s :: s in m ==> m[s] == attrs[prefix + s]
  {
    var keys := set k | k in attrs && StartsWith(k, prefix) :: k[|prefix|..];
    StrippedKeys(attrs, prefix, keys);
    map s | s in keys :: attrs[prefix + s]
  }

  lemma StrippedKeys(attrs: map<string, Value>, prefix: string, keys: set<string>)
    requires keys == set k | k in attrs && StartsWith(k, prefix) :: k[|prefix|..]
    ensures forall s :: s in keys <==> prefix + s in attrs
  {
    forall s
      ensures s in keys <==> prefix + s in attrs
    {
      if s in keys {
        var k :| k in attrs && StartsWith(k, prefix) && s == k[|prefix|..];
        PrefixSplit(k, prefix);
      }
      if prefix + s in attrs {
        StartsWithConcat(prefix, s);
      }
    }
  }

  /** The entries of `attrs` whose keys do not begin with `prefix`. */
  function WithoutPrefix(attrs: map<string, Value>, prefix: string): map<string, Value> {
    map k | k in attrs && !StartsWith(k, prefix) :: attrs[k]
  }

  // ---------------------------------------------------------------- model_construct_env

  /** The generation arguments and the primary arguments `model_construct_env` computes. */
  datatype EnvSplit = EnvSplit(generation: map<string, Value>, primary: map<string, Value>)

  /**
   Lines 1091 and 1106-1113: drop `None` values; take the generation
   arguments from an explicit `generation_config` dictionary (popped from the
   keywords) or else from the keywords naming generation fields; the primary
   arguments are the remaining keywords outside the generation arguments.
   */
  function ConstructEnvSplit(generationNames: set<string>, attrs: map<string, Value>): (r: Result<EnvSplit>)
    ensures r.Err? <==> GenerationConfigKey in attrs && attrs[GenerationConfigKey] != Null
                        && !attrs[GenerationConfigKey].Dict?
    ensures r.Err? ==> r.error == ExpectedDictionary
    ensures r.Ok? && GenerationConfigKey in attrs && attrs[GenerationConfigKey] != Null ==>
      r.value.generation == attrs[GenerationConfigKey].fields
    ensures r.Ok? && !(GenerationConfigKey in attrs && attrs[GenerationConfigKey] != Null) ==>
      r.value.generation == map k | k in attrs && k in generationNames && attrs[k] != Null :: attrs[k]
    ensures r.Ok? ==> forall k :: k in r.value.primary <==>
      k in attrs && attrs[k] != Null && k != GenerationConfigKey && k !in r.value.generation
    ensures r.Ok? ==> forall k :: k in r.value.primary ==> r.value.primary[k] == attrs[k]
  {
    var filtered := map k | k in attrs && attrs[k] != Null :: attrs[k];
    if GenerationConfigKey in filtered then
      var generationConfig := filtered[GenerationConfigKey];
      if !generationConfig.Dict? then Err(ExpectedDictionary)
      else
        var rest := filtered - {GenerationConfigKey};
        Ok(EnvSplit(generationConfig.fields,
                    map k | k in rest && k !in generationConfig.fields :: rest[k]))
    else
      var generation := map k | k in filtered && k in generationNames :: filtered[k];
      Ok(EnvSplit(generation, map k | k in filtered && k !in generation :: filtered[k]))
  }

  // ---------------------------------------------------------------- model_validate_click

  /** What `model_validate_click` hands to `model_construct_env`, and what it returns untouched. */
  datatype ClickSplit = ClickSplit(llmConfigAttrs: map<string, Value>, remaining: map<string, Value>)

  /**
   Lines 1117-1130. A keyword `<model>_generation_<x>` becomes `x` of the
   `generation_config` dictionary, any other `<model>_<x>` becomes the
   top-level `x`, and the rest is returned unchanged.
   */
  function ValidateClick(modelName: string, attrs: map<string, Value>): (r: ClickSplit)
    ensures GenerationConfigKey in r.llmConfigAttrs && r.llmConfigAttrs[GenerationConfigKey].Dict?
    ensures var generation := r.llmConfigAttrs[GenerationConfigKey].fields;
      && (forall x :: x in generation <==> modelName + "_generation_" + x in attrs)
      && (forall x :: x in generation ==> generation[x] == attrs[modelName + "_generation_" + x])
    ensures forall x :: x != GenerationConfigKey ==>
      (x in r.llmConfigAttrs <==> modelName + "_" + x in attrs && !StartsWith(x, "generation_"))
    ensures forall x :: x in r.llmConfigAttrs && x != GenerationConfigKey ==>
      r.llmConfigAttrs[x] == attrs[modelName + "_" + x]
    ensures forall k :: k in r.remaining <==> k in attrs && !StartsWith(k, modelName + "_")
    ensures forall k :: k in r.remaining ==> r.remaining[k] == attrs[k]
  {
    var p := modelName + "_";
    var g := modelName + "_generation_";
    assert g == p + "generation_";
    var generation := StripPrefix(attrs, g);
    var top := StripPrefix(WithoutPrefix(attrs, g), p);
    forall x | x != GenerationConfigKey
      ensures x in top <==> p + x in attrs && !StartsWith(x, "generation_")
    {
      StartsWithAfterPrefix(p, x, "generation_");
    }
    ClickSplit(top[GenerationConfigKey := Dict(generation)], WithoutPrefix(attrs, p))
  }

  /** Below a common prefix, starting with `p + q` is starting with `q` after `p`. */
  lemma StartsWithAfterPrefix(p: string, x: string, q: string)
    ensures StartsWith(p + x, p + q) <==> StartsWith(x, q)
  {
    if StartsWith(p + x, p + q) {
      assert x[..|q|] == (p + x)[|p|..|p| + |q|];
    }
    if StartsWith(x, q) {
      assert (p + x)[..|p + q|] == p + x[..|q|];
    }
  }

  /**
   The `generation_config` entry is never overwritten by a top-level option:
   `<model>_generation_config` is a generation option for `config`.
   */
  lemma ValidateClickGenerationConfigKey(modelName: string, attrs: map<string, Value>)
    requires modelName + "_" + GenerationConfigKey in attrs
    ensures var generation := ValidateClick(modelName, attrs).llmConfigAttrs[GenerationConfigKey].fields;
      "config" in generation && generation["config"] == attrs[modelName + "_" + GenerationConfigKey]
  {
    var g := modelName + "_generation_";
    assert "_" + GenerationConfigKey == "_generation_" + "config";
    assert modelName + "_" + GenerationConfigKey == modelName + ("_" + GenerationConfigKey);
    assert g + "config" == modelName + ("_generation_" + "config");
    ValidateClickGenerationOption(modelName, attrs, g + "config");
    StartsWithConcat(g, "config");
  }

  /**
   Every keyword of the input ends up in exactly one place: a
   `<model>_generation_` option in the generation dictionary, another
   `<model>_` option at top level, anything else in the remainder.
   */
  lemma ValidateClickGenerationOption(modelName: string, attrs: map<string, Value>, k: string)
    requires k in attrs && StartsWith(k, modelName + "_generation_")
    ensures var r := ValidateClick(modelName, attrs);
      && k[|modelName + "_generation_"|..] in r.llmConfigAttrs[GenerationConfigKey].fields
      && k !in r.remaining
  {
    var g := modelName + "_generation_";
    var p := modelName + "_";
    assert g == p + "generation_";
    PrefixSplit(k, g);
    StartsWithLonger(k, p, "generation_");
  }

  lemma ValidateClickTopOption(modelName: string, attrs: map<string, Value>, k: string)
    requires k in attrs && StartsWith(k, modelName + "_") && !StartsWith(k, modelName + "_generation_")
    ensures var r := ValidateClick(modelName, attrs);
      var x := k[|modelName + "_"|..];
      && x != GenerationConfigKey && x in r.llmConfigAttrs && r.llmConfigAttrs[x] == attrs[k]
      && k !in r.remaining
  {
    var g := modelName + "_generation_";
    var p := modelName + "_";
    assert g == p + "generation_";
    PrefixSplit(k, p);
    var x := k[|p|..];
    StartsWithAfterPrefix(p, x, "generation_");
    assert StartsWith(GenerationConfigKey, "generation_");
  }

  lemma ValidateClickOtherOption(modelName: string, attrs: map<string, Value>, k: string)
    requires k in attrs && !StartsWith(k, modelName + "_")
    ensures !StartsWith(k, modelName + "_generation_")
    ensures var r := ValidateClick(modelName, attrs);
      k in r.remaining && r.remaining[k] == attrs[k]
  {
    if StartsWith(k, modelName + "_generation_") {
      assert modelName + "_generation_" == modelName + "_" + "generation_";
      StartsWithLonger(k, modelName + "_", "generation_");
    }
  }

  /**
   The click path never trips the dictionary check of `model_construct_env`,
   and the generation arguments it computes are exactly the
   `<model>_generation_*` options, `None` values included: only top-level
   `None` values are dropped, so a `None` option later overwrites the
   current generation value (see `Evolved`).
   */
  lemma ClickThenConstructEnv(modelName: string, generationNames: set<string>, attrs: map<string, Value>)
    ensures var split := ConstructEnvSplit(generationNames, ValidateClick(modelName, attrs).llmConfigAttrs);
      && split.Ok?
      && (forall x :: x in split.value.generation <==> modelName + "_generation_" + x in attrs)
  {
    var llm := ValidateClick(modelName, attrs).llmConfigAttrs;
    assert llm[GenerationConfigKey].Dict? && llm[GenerationConfigKey] != Null;
    var split := ConstructEnvSplit(generationNames, llm);
    assert split.value.generation == llm[GenerationConfigKey].fields;
  }

  // ---------------------------------------------------------------- the instance model_construct_env returns

  /**
   The keyword arguments `attr.evolve(inst, **changes)` passes to the class:
   each `init` field's current value, replaced by the change when one is given.
   */
  function Evolved(current: map<string, Value>, changes: map<string, Value>): (m: map<string, Value>)
    ensures m.Keys == current.Keys + changes.Keys
    ensures forall k :: k in changes ==> m[k] == changes[k]
    ensures forall k :: k in current && k !in changes ==> m[k] == current[k]
  {
    current + changes
  }

  /**
   `model_construct_env` as the code reads (lines 1106-1115), up to the
   routing of the `__init__` call that builds the result. `current` holds
   the `init` field values of `ncls`, `currentGeneration` those of its
   generation configuration. Line 1114 evolves the generation configuration,
   which rejects a name that is not a generation field; line 1115 then
   rebuilds the instance from `current` and the primary arguments alone,
   with no `generation_config`.
   */
  function ConstructEnvAsWritten(accepted: set<string>, generationNames: set<string>, current: map<string, Value>,
                                 currentGeneration: map<string, Value>, attrs: map<string, Value>)
    : (r: Result<Construct.Routing>)
    ensures r.Err? <==> ConstructEnvSplit(generationNames, attrs).Err?
                        || !(ConstructEnvSplit(generationNames, attrs).value.generation.Keys <= generationNames)
    // The evolved generation configuration plays no part: no `generation_config` is passed on.
    ensures r.Ok? ==>
      var split := ConstructEnvSplit(generationNames, attrs).value;
      r.value == Route(accepted, generationNames, Evolved(current, split.primary), None, None)
  {
    match ConstructEnvSplit(generationNames, attrs)
    case Err(e) => Err(e)
    case Ok(split) =>
      if !(split.generation.Keys <= generationNames) then Err(UnexpectedArguments(split.generation.Keys - generationNames))
      else Ok(Route(accepted, generationNames, Evolved(current, split.primary), None, None))
  }

  /**
   As written, the generation arguments are lost: unless an own field
   shares a generation field's name, the rebuilt instance's generation
   configuration receives no argument at all, whatever the keywords held.
   */
  lemma ConstructEnvDropsGeneration(accepted: set<string>, generationNames: set<string>, current: map<string, Value>,
                                    currentGeneration: map<string, Value>, attrs: map<string, Value>)
    requires ConstructEnvAsWritten(accepted, generationNames, current, currentGeneration, attrs).Ok?
    requires GenerationConfigKey !in attrs
    requires forall k :: k in current ==> k !in generationNames
    ensures ConstructEnvAsWritten(accepted, generationNames, current, currentGeneration, attrs).value.generation == map[]
  {
    var split := ConstructEnvSplit(generationNames, attrs).value;
    assert forall k :: k in split.primary ==> k !in generationNames;
  }

  /** `model_construct_env(temperature=0.2)`: the split finds the argument, the result never gets it. */
  lemma ConstructEnvDropsTemperature()
    ensures ConstructEnvSplit({"temperature"}, map["temperature" := Real(0.2)]).value.generation
              == map["temperature" := Real(0.2)]
    ensures ConstructEnvAsWritten({"temperature"}, {"temperature"}, map[], map["temperature" := Real(1.0)],
                                  map["temperature" := Real(0.2)]).value.generation == map[]
  {
    var attrs := map["temperature" := Real(0.2)];
    assert ConstructEnvSplit({"temperature"}, attrs).value.generation.Keys == {"temperature"};
    ConstructEnvDropsGeneration({"temperature"}, {"temperature"}, map[], map["temperature" := Real(1.0)], attrs);
  }

  /**
   `model_construct_env` as intended: the evolved generation configuration
   is handed to `__init__` as its `generation_config`, so the result keeps
   every generation argument and, for the other generation fields, the
   values `ncls` already had.
   */
  function ConstructEnv(accepted: set<string>, generationNames: set<string>, current: map<string, Value>,
                        currentGeneration: map<string, Value>, attrs: map<string, Value>)
    : (r: Result<Construct.Routing>)
    ensures r.Err? <==> ConstructEnvSplit(generationNames, attrs).Err?
                        || !(ConstructEnvSplit(generationNames, attrs).value.generation.Keys <= generationNames)
    ensures r.Err? && ConstructEnvSplit(generationNames, attrs).Ok? ==>
      var generation := ConstructEnvSplit(generationNames, attrs).value.generation;
      r.error == UnexpectedArguments(generation.Keys - generationNames)
    ensures r.Ok? ==>
      var split := ConstructEnvSplit(generationNames, attrs).value;
      && r.value.generation.Keys == currentGeneration.Keys + split.generation.Keys
      && (forall k :: k in split.generation ==> r.value.generation[k] == split.generation[k])
      && (forall k :: k in currentGeneration && k !in split.generation ==> r.value.generation[k] == currentGeneration[k])
    ensures r.Ok? ==>
      var split := ConstructEnvSplit(generationNames, attrs).value;
      forall k :: k in split.primary && k in accepted && k !in generationNames && k !in currentGeneration ==>
        k in r.value.primary && r.value.primary[k] == split.primary[k]
  {
    match ConstructEnvSplit(generationNames, attrs)
    case Err(e) => Err(e)
    case Ok(split) =>
      if !(split.generation.Keys <= generationNames) then Err(UnexpectedArguments(split.generation.Keys - generationNames))
      else
        var generation := Evolved(currentGeneration, split.generation);
        var routing := Route(accepted, generationNames, Evolved(current, split.primary), Some(generation), None);
        assert forall k :: k in split.primary && k in accepted ==> k !in routing.extras;
        Ok(routing)
  }

  /**
   The click path through the intended `model_construct_env`: each
   `<model>_generation_<x>` option becomes field `x` of the result's
   generation configuration.
   */
  lemma ClickOptionReachesGeneration(modelName: string, accepted: set<string>, generationNames: set<string>,
                                     current: map<string, Value>, currentGeneration: map<string, Value>,
                                     attrs: map<string, Value>, x: string)
    requires modelName + "_generation_" + x in attrs
    ensures var r := ConstructEnv(accepted, generationNames, current, currentGeneration,
                                  ValidateClick(modelName, attrs).llmConfigAttrs);
      r.Ok? ==> x in r.value.generation && r.value.generation[x] == attrs[modelName + "_generation_" + x]
  {
    var llm := ValidateClick(modelName, attrs).llmConfigAttrs;
    ClickThenConstructEnv(modelName, generationNames, attrs);
    assert ConstructEnvSplit(generationNames, llm).value.generation == llm[GenerationConfigKey].fields;
  }

  // ---------------------------------------------------------------- structure_llm_config

  /** The arguments `structure_llm_config` passes to the class. */
  datatype StructuredCall = StructuredCall(
    attrs: map<string, Value>,             // `**cls_attrs`
    generationConfig: map<string, Value>,  // `generation_config=`
    extras: map<string, Value>)            // `__openllm_extras__=`

  /**
   Lines 1192-1218. `ownNames` is `__openllm_attrs__`, `generationNames` the
   generation class's fields. A top-level generation key is merged over an
   explicit `generation_config` dictionary (the top level wins); everything
   that is neither an own field nor a generation argument becomes extras.
   */
  function Structure(data: Value, ownNames: set<string>, generationNames: set<string>): (r: Result<StructuredCall>)
    ensures r.Err? <==> !data.Dict? || (GenerationConfigKey in data.fields && !data.fields[GenerationConfigKey].Dict?)
    ensures r.Err? ==> r.error == ExpectedDictionary
    ensures r.Ok? ==> r.value.attrs == Restrict(data.fields, ownNames)
    ensures r.Ok? && GenerationConfigKey !in data.fields ==>
      r.value.generationConfig == Restrict(data.fields, generationNames)
    ensures r.Ok? && GenerationConfigKey in data.fields ==>
      r.value.generationConfig == MergeMaps(data.fields[GenerationConfigKey].fields,
                                            Restrict(data.fields - {GenerationConfigKey}, generationNames))
    ensures r.Ok? ==> forall k :: k in r.value.extras <==>
      k in data.fields && k != GenerationConfigKey && k !in ownNames && k !in r.value.generationConfig
    ensures r.Ok? ==> forall k :: k in r.value.extras ==> r.value.extras[k] == data.fields[k] && k !in generationNames
  {
    if !data.Dict? then Err(ExpectedDictionary)
    else
      var d := data.fields;
      var clsAttrs := Restrict(d, ownNames);
      if GenerationConfigKey in d then
        var generationConfig := d[GenerationConfigKey];
        if !generationConfig.Dict? then Err(ExpectedDictionary)
        else
          var rest := d - {GenerationConfigKey};
          var merged := MergeMaps(generationConfig.fields, Restrict(rest, generationNames));
          Ok(StructuredCall(clsAttrs, merged, map k | k in rest && k !in clsAttrs && k !in merged :: rest[k]))
      else
        var generation := Restrict(d, generationNames);
        Ok(StructuredCall(clsAttrs, generation, map k | k in d && k !in clsAttrs && k !in generation :: d[k]))
  }

  /**
   The constructor call `structure_llm_config` makes routes nothing further
   into extras: every `**cls_attrs` keyword is accepted, so the extras the
   instance keeps are exactly the structured ones.
   */
  lemma StructureKeepsExtras(s: Schema, data: Value)
    requires Structure(data, (set n | n in s.ownNames), NameSet(s.generation)).Ok?
    ensures var call := Structure(data, (set n | n in s.ownNames), NameSet(s.generation)).value;
      Route(AcceptedKeys(s), NameSet(s.generation), call.attrs, Some(call.generationConfig), Some(call.extras)).extras
        == call.extras
  {
    var call := Structure(data, (set n | n in s.ownNames), NameSet(s.generation)).value;
    assert Unaccepted(AcceptedKeys(s), call.attrs) == map[];
  }

  /**
   A generation key given both at top level and in `generation_config`
   takes the top-level value, as the merge direction says.
   */
  lemma StructureTopLevelWins(ownNames: set<string>, generationNames: set<string>,
                              d: map<string, Value>, key: string)
    requires GenerationConfigKey in d && d[GenerationConfigKey].Dict?
    requires key in d && key in generationNames && key != GenerationConfigKey && !d[key].Dict?
    ensures var r := Structure(Dict(d), ownNames, generationNames);
      r.Ok? && r.value.generationConfig[key] == d[key]
  {
  }
}

=== FILE: schema.dfy ===
/**
 Schema registration: what `LLMConfig.__init_subclass__`
 (src/openllm/_configuration.py:874-986) computes for a configuration class —
 its `__config__` defaults, its own and inherited field table with the
 mandatory-after-default check and environment-bound defaults, and its
 generation sub-schema.
 */
module Schema {
  import opened Common
  import opened Values
  import opened Fields
  import opened BaseAttrs

  /** The `inflection` transforms, taken as given functions. */
  datatype Inflection = Inflection(underscore: string -> string, dasherize: string -> string)

  /** `openllm.utils.ModelEnv(model_name)`, identified by the model name it was built for. */
  datatype ModelEnv = ModelEnv(modelName: string)

  /**
   A class's `__config__` entries. `None` stands both for a missing key and
   for an explicit `None`, which the code treats alike.
   */
  datatype RawModelConfig = RawModelConfig(
    url: Option<string>,
    requiresGpu: Option<bool>,
    trustRemoteCode: Option<bool>,
    requirements: Option<seq<string>>,
    nameType: Option<string>,
    modelName: Option<string>,
    startName: Option<string>,
    env: Option<ModelEnv>,
    timeout: Option<int>,
    workersPerResource: Option<real>,
    defaultId: Option<string>,
    modelIds: Option<seq<string>>)

  /** The resolved `ModelConfig` stored on the class as `__openllm_<key>__`. */
  datatype ModelConfig = ModelConfig(
    nameType: string,
    modelName: string,
    defaultId: string,
    modelIds: seq<string>,
    startName: string,
    url: string,
    requiresGpu: bool,
    trustRemoteCode: bool,
    requirements: seq<string>,
    env: ModelEnv,
    timeout: int,
    workersPerResource: real)

  const DefaultNameType := "dasherize"
  const DefaultUrl := "(not provided)"
  const DefaultTimeout := 3600

  /** The class name with every "Config" removed, `cls.__name__.replace("Config", "")`. */
  function StrippedClassName(className: string): string {
    ReplaceAll(className, "Config", "")
  }

  /** The model and start names a class gets when `__config__` names neither. */
  function DefaultNames(className: string, nameType: string, inflection: Inflection): (string, string) {
    var stripped := StrippedClassName(className);
    if nameType == DefaultNameType then
      var modelName := inflection.underscore(stripped);
      (modelName, inflection.dasherize(modelName))
    else
      (Lower(stripped), Lower(stripped))
  }

  /** `_gen_default_model_config`: required keys, then `first_not_none` defaults. */
  function GenDefaultModelConfig(className: string, raw: RawModelConfig, inflection: Inflection): (r: Result<ModelConfig>)
    ensures raw.defaultId.None? ==> r == Err(MissingDefaultId)
    ensures raw.defaultId.Some? && raw.modelIds.None? ==> r == Err(MissingModelIds)
    ensures raw.defaultId.Some? && raw.modelIds.Some? ==> r.Ok?
    ensures r.Ok? ==>
      && r.value.defaultId == raw.defaultId.value
      && r.value.modelIds == raw.modelIds.value
      && r.value.nameType == raw.nameType.GetOr(DefaultNameType)
      && r.value.modelName == raw.modelName.GetOr(DefaultNames(className, r.value.nameType, inflection).0)
      && r.value.startName == raw.startName.GetOr(DefaultNames(className, r.value.nameType, inflection).1)
      && r.value.env == raw.env.GetOr(ModelEnv(r.value.modelName))
    ensures r.Ok? ==>
      && r.value.url == raw.url.GetOr(DefaultUrl)
      && r.value.requiresGpu == raw.requiresGpu.GetOr(false)
      && r.value.trustRemoteCode == raw.trustRemoteCode.GetOr(false)
      && r.value.requirements == raw.requirements.GetOr([])
      && r.value.timeout == raw.timeout.GetOr(DefaultTimeout)
      && r.value.workersPerResource == raw.workersPerResource.GetOr(1.0)
  {
    if raw.defaultId.None? then Err(MissingDefaultId)
    else if raw.modelIds.None? then Err(MissingModelIds)
    else
      var nameType := raw.nameType.GetOr(DefaultNameType);
      var names := DefaultNames(className, nameType, inflection);
      var modelName := raw.modelName.GetOr(names.0);
      Ok(ModelConfig(
        nameType, modelName, raw.defaultId.value, raw.modelIds.value,
        raw.startName.GetOr(names.1),
        raw.url.GetOr(DefaultUrl),
        raw.requiresGpu.GetOr(false),
        raw.trustRemoteCode.GetOr(false),
        raw.requirements.GetOr([]),
        raw.env.GetOr(ModelEnv(modelName)),
        raw.timeout.GetOr(DefaultTimeout),
        raw.workersPerResource.GetOr(1.0)))
  }

  /** A resolved configuration written back as a `__config__` with every key set. */
  function AsRaw(c: ModelConfig): RawModelConfig {
    RawModelConfig(
      Some(c.url), Some(c.requiresGpu), Some(c.trustRemoteCode), Some(c.requirements),
      Some(c.nameType), Some(c.modelName), Some(c.startName), Some(c.env), Some(c.timeout),
      Some(c.workersPerResource), Some(c.defaultId), Some(c.modelIds))
  }

  /**
   Resolution is a fixpoint: a `__config__` that already names every key is
   taken verbatim, whatever the class is called.
   */
  lemma GenDefaultModelConfigFixpoint(className: string, c: ModelConfig, inflection: Inflection)
    ensures GenDefaultModelConfig(className, AsRaw(c), inflection) == Ok(c)
  {
  }

  /** Keys left out of `__config__` take the documented defaults. */
  lemma GenDefaultModelConfigExample(inflection: Inflection)
    ensures var raw := RawModelConfig(None, None, None, None, None, Some("example"), Some("example"), None, None, None,
                                      Some("example/base"), Some(["example/base"]));
            GenDefaultModelConfig("ExampleConfig", raw, inflection)
              == Ok(ModelConfig("dasherize", "example", "example/base", ["example/base"], "example",
                                "(not provided)", false, false, [], ModelEnv("example"), 3600, 1.0))
  {
  }

  // ---------------------------------------------------------------------------
  // Own fields (lines 882-920)

  /** The keyword arguments of a `Field(...)` call (an attrs `_CountingAttr`). */
  datatype FieldArgs = FieldArgs(
    default: Default,
    init: bool,
    kwOnly: bool,
    alias: Option<string>,
    description: Option<string>)

  /** A class-body entry: a plain value, or a `Field(...)`. */
  datatype Member = Plain(value: Value) | Counting(args: FieldArgs)

  /** `cls.__annotations__` in declaration order, and `cls.__dict__`. */
  datatype ClassBody = ClassBody(annotations: seq<(string, string)>, members: map<string, Member>)

  /**
   A `Field()` with no arguments. Its default is `None`, not `attr.NOTHING`:
   the attrs class `GenerationConfig` declares `min_new_tokens = Field(...)`
   without a default after `min_length` with one, which attrs accepts only
   because such a field is not mandatory.
   */
  const BareField := FieldArgs(Given(Null), true, false, None, None)

  predicate UniqueKeys(pairs: seq<(string, string)>) {
    forall i, j :: 0 <= i < j < |pairs| ==> pairs[i].0 != pairs[j].0
  }

  /** Annotations come from a dictionary: each name once. */
  predicate UniqueAnnotations(body: ClassBody) {
    UniqueKeys(body.annotations)
  }

  /** The annotations whose type text passes `keep`, in order. */
  function KeepAnnotations(annotations: seq<(string, string)>, keep: string -> bool): (r: seq<(string, string)>)
    ensures forall p :: p in r <==> p in annotations && keep(p.1)
    ensures |r| <= |annotations|
  {
    if annotations == [] then []
    else
      var rest := KeepAnnotations(annotations[1..], keep);
      assert forall p :: p in annotations <==> p == annotations[0] || p in annotations[1..];
      if keep(annotations[0].1) then [annotations[0]] + rest else rest
  }

  /** Filtering keeps annotation names distinct. */
  lemma {:induction false} KeepAnnotationsUnique(annotations: seq<(string, string)>, keep: string -> bool)
    requires UniqueKeys(annotations)
    ensures UniqueKeys(KeepAnnotations(annotations, keep))
  {
    if annotations != [] {
      var t := annotations[1..];
      assert UniqueKeys(t) by {
        forall i, j | 0 <= i < j < |t| ensures t[i].0 != t[j].0 {
          assert t[i] == annotations[i + 1] && t[j] == annotations[j + 1];
        }
      }
      KeepAnnotationsUnique(t, keep);
      var rt := KeepAnnotations(t, keep);
      if keep(annotations[0].1) {
        var r := [annotations[0]] + rt;
        forall i, j | 0 <= i < j < |r|
          ensures r[i].0 != r[j].0
        {
          assert r[j] == rt[j - 1];
          if i > 0 {
            assert r[i] == rt[i - 1];
          } else {
            assert rt[j - 1] in t;
            var k :| 0 <= k < |t| && t[k] == rt[j - 1];
            assert annotations[k + 1] == t[k];
          }
        }
        assert KeepAnnotations(annotations, keep) == r;
      }
    }
  }

  /** An annotation declares a field unless it is a `ClassVar`. */
  predicate IsFieldAnnotation(typ: string) {
    !IsClassVar(typ)
  }

  /** The annotations that declare fields: every one that is not a `ClassVar`. */
  function FieldAnnotations(annotations: seq<(string, string)>): (r: seq<(string, string)>)
    ensures forall p :: p in r <==> p in annotations && !IsClassVar(p.1)
    ensures |r| <= |annotations|
  {
    KeepAnnotations(annotations, IsFieldAnnotation)
  }

  lemma FieldAnnotationsUnique(annotations: seq<(string, string)>)
    requires UniqueKeys(annotations)
    ensures UniqueKeys(FieldAnnotations(annotations))
  {
    KeepAnnotationsUnique(annotations, IsFieldAnnotation);
  }

  function AnnotatedNames(body: ClassBody): set<string> {
    set p | p in FieldAnnotations(body.annotations) :: p.0
  }

  /** Names bound to a `Field(...)` that lack a field annotation. */
  function Unannotated(body: ClassBody): set<string> {
    (set n | n in body.members && body.members[n].Counting?) - AnnotatedNames(body)
  }

  /** The `FieldArgs` behind an annotated name, as lines 895-900 normalise it. */
  function ArgsFor(body: ClassBody, name: string): FieldArgs {
    if name !in body.members then BareField
    else match body.members[name]
      case Plain(v) => BareField.(default := Given(v))
      case Counting(args) => args
  }

  /** `Attribute.from_counting_attr` followed by setting `metadata["env"]`. */
  function OwnAttribute(body: ClassBody, modelName: string, annotation: (string, string)): Attribute {
    var args := ArgsFor(body, annotation.0);
    Attribute(annotation.0, annotation.1, args.default, args.init, args.kwOnly, false,
              args.alias, Some(FieldEnvKey(modelName, annotation.0)), args.description)
  }

  /** `own_attrs`, or the missing-annotation error. */
  function OwnAttrs(body: ClassBody, modelName: string): (r: Result<seq<Attribute>>)
    ensures r.Err? <==> Unannotated(body) != {}
    ensures r.Err? ==> r.error == MissingAnnotation(Unannotated(body))
    ensures r.Ok? ==>
      && |r.value| == |FieldAnnotations(body.annotations)|
      && forall i :: 0 <= i < |r.value| ==>
           var p := FieldAnnotations(body.annotations)[i];
           && r.value[i].name == p.0
           && r.value[i].typ == p.1
           && !r.value[i].inherited
           && r.value[i].env == Some(FieldEnvKey(modelName, p.0))
           && r.value[i].default ==
                (if p.0 !in body.members then Given(Null)
                 else if body.members[p.0].Plain? then Given(body.members[p.0].value)
                 else body.members[p.0].args.default)
           // `init`, `kw_only`, `alias` and `description` come from the `Field(...)` call,
           // and take the bare `Field()` settings for a plain value or a missing member
           && r.value[i].init == ArgsFor(body, p.0).init
           && r.value[i].kwOnly == ArgsFor(body, p.0).kwOnly
           && r.value[i].alias == ArgsFor(body, p.0).alias
           && r.value[i].description == ArgsFor(body, p.0).description
           && (p.0 !in body.members || body.members[p.0].Plain? ==>
                 r.value[i].init && !r.value[i].kwOnly && r.value[i].alias.None? && r.value[i].description.None?)
  {
    var unannotated := Unannotated(body);
    if unannotated != {} then Err(MissingAnnotation(unannotated))
    else
      var fields := FieldAnnotations(body.annotations);
      Ok(seq(|fields|, i requires 0 <= i < |fields| => OwnAttribute(body, modelName, fields[i])))
  }

  // ---------------------------------------------------------------------------
  // Mandatory-after-default check (lines 932-945)

  /** Part of the positional `__init__` signature: `init` set and `kw_only` unset. */
  predicate Positional(a: Attribute) {
    a.init && !a.kwOnly
  }

  /**
   The checking loop, started with `had_default` as given: the first
   positional attribute without a default that follows a positional one
   with a default.
   */
  function FirstOrderViolation(attrs: seq<Attribute>, hadDefault: bool): Option<Attribute> {
    if attrs == [] then None
    else
      var a := attrs[0];
      if !Positional(a) then FirstOrderViolation(attrs[1..], hadDefault)
      else if hadDefault && a.default.Nothing? then Some(a)
      else FirstOrderViolation(attrs[1..], hadDefault || a.default.Given?)
  }

  /** Some positional mandatory attribute comes after a positional defaulted one. */
  predicate OrderViolation(attrs: seq<Attribute>) {
    exists i, j :: 0 <= i < j < |attrs| && Positional(attrs[i]) && attrs[i].default.Given?
                                        && Positional(attrs[j]) && attrs[j].default.Nothing?
  }

  predicate HasMandatoryPositional(attrs: seq<Attribute>) {
    exists j :: 0 <= j < |attrs| && Positional(attrs[j]) && attrs[j].default.Nothing?
  }

  lemma HasMandatoryPositionalCons(attrs: seq<Attribute>)
    requires attrs != []
    ensures HasMandatoryPositional(attrs) <==>
      (Positional(attrs[0]) && attrs[0].default.Nothing?) || HasMandatoryPositional(attrs[1..])
  {
    var t := attrs[1..];
    if HasMandatoryPositional(t) {
      var j :| 0 <= j < |t| && Positional(t[j]) && t[j].default.Nothing?;
      assert attrs[j + 1] == t[j];
    }
    if HasMandatoryPositional(attrs) {
      var j :| 0 <= j < |attrs| && Positional(attrs[j]) && attrs[j].default.Nothing?;
      if j > 0 {
        assert t[j - 1] == attrs[j];
      }
    }
  }

  lemma OrderViolationCons(attrs: seq<Attribute>)
    requires attrs != []
    ensures OrderViolation(attrs) <==>
      (Positional(attrs[0]) && attrs[0].default.Given? && HasMandatoryPositional(attrs[1..]))
      || OrderViolation(attrs[1..])
  {
    var t := attrs[1..];
    if OrderViolation(t) {
      var i, j :| 0 <= i < j < |t| && Positional(t[i]) && t[i].default.Given?
                                    && Positional(t[j]) && t[j].default.Nothing?;
      assert attrs[i + 1] == t[i] && attrs[j + 1] == t[j];
    }
    if Positional(attrs[0]) && attrs[0].default.Given? && HasMandatoryPositional(t) {
      var j :| 0 <= j < |t| && Positional(t[j]) && t[j].default.Nothing?;
      assert attrs[j + 1] == t[j];
    }
    if OrderViolation(attrs) {
      var i, j :| 0 <= i < j < |attrs| && Positional(attrs[i]) && attrs[i].default.Given?
                                        && Positional(attrs[j]) && attrs[j].default.Nothing?;
      assert t[j - 1] == attrs[j];
      if i > 0 {
        assert t[i - 1] == attrs[i];
      }
    }
  }

  /**
   The loop rejects exactly the tables with an order violation, and what it
   reports is a positional mandatory attribute of the table.
   */
  lemma {:induction false} FirstOrderViolationCorrect(attrs: seq<Attribute>, hadDefault: bool)
    ensures FirstOrderViolation(attrs, hadDefault).Some? <==>
              (hadDefault && HasMandatoryPositional(attrs)) || OrderViolation(attrs)
    ensures FirstOrderViolation(attrs, hadDefault).Some? ==>
              var a := FirstOrderViolation(attrs, hadDefault).value;
              a in attrs && Positional(a) && a.default.Nothing?
  {
    if attrs != [] {
      var a := attrs[0];
      var t := attrs[1..];
      var h' := if Positional(a) then hadDefault || a.default.Given? else hadDefault;
      FirstOrderViolationCorrect(t, h');
      HasMandatoryPositionalCons(attrs);
      OrderViolationCons(attrs);
      if FirstOrderViolation(t, h').Some? {
        assert FirstOrderViolation(t, h').value in attrs;
      }
    }
  }

  /** The positional attributes, in order. */
  function PositionalOnly(attrs: seq<Attribute>): seq<Attribute> {
    if attrs == [] then []
    else if Positional(attrs[0]) then [attrs[0]] + PositionalOnly(attrs[1..])
    else PositionalOnly(attrs[1..])
  }

  /** Keyword-only and `init=False` attributes never influence the check. */
  lemma {:induction false} OrderCheckIgnoresExempt(attrs: seq<Attribute>, hadDefault: bool)
    ensures FirstOrderViolation(attrs, hadDefault) == FirstOrderViolation(PositionalOnly(attrs), hadDefault)
  {
    if attrs != [] {
      var a := attrs[0];
      if Positional(a) {
        var p := [a] + PositionalOnly(attrs[1..]);
        assert p[0] == a && p[1..] == PositionalOnly(attrs[1..]);
        OrderCheckIgnoresExempt(attrs[1..], hadDefault || a.default.Given?);
      } else {
        OrderCheckIgnoresExempt(attrs[1..], hadDefault);
      }
    }
  }

  // ---------------------------------------------------------------------------
  // Field table with environment-bound defaults (lines 924-955)

  /**
   Lines 949-952: the alias becomes the name without leading underscores when
   it was unset or empty, and is cleared otherwise; the default becomes the
   environment variable's value when it is set.
   */
  function BindEnv(a: Attribute, modelName: string, env: map<string, string>): Attribute {
    a.(alias := if a.alias.None? || a.alias == Some("") then Some(LStripUnderscores(a.name)) else None,
       default := EnvDefault(env, FieldEnvKey(modelName, a.name), a.default))
  }

  /** `attrs`: own attributes, then inherited ones, checked and bound to the environment. */
  function BuildFieldTable(own: seq<Attribute>, base: seq<Attribute>, modelName: string, env: map<string, string>)
    : (r: Result<seq<Attribute>>)
    ensures r.Ok? <==> !OrderViolation(own + base)
    ensures r.Err? ==> exists a :: a in own + base && Positional(a) && a.default.Nothing? && r.error == InvalidFieldOrder(a.name)
    ensures r.Ok? ==>
      && Names(r.value) == Names(own) + Names(base)
      && forall i :: 0 <= i < |r.value| ==>
           var a := (own + base)[i];
           var key := FieldEnvKey(modelName, a.name);
           && r.value[i].default == (if key in env then Given(Str(env[key])) else a.default)
           && r.value[i].alias == (if a.alias.None? || a.alias == Some("") then Some(LStripUnderscores(a.name)) else None)
           && r.value[i] == a.(alias := r.value[i].alias, default := r.value[i].default)
  {
    var attrs := own + base;
    FirstOrderViolationCorrect(attrs, false);
    match FirstOrderViolation(attrs, false)
    case Some(a) => Err(InvalidFieldOrder(a.name))
    case None =>
      var bound := seq(|attrs|, i requires 0 <= i < |attrs| => BindEnv(attrs[i], modelName, env));
      assert Names(bound) == Names(own) + Names(base);
      Ok(bound)
  }

  /**
   Environment precedence: setting a field's variable makes its value the
   field's default; without it the declared default stays.
   */
  lemma EnvOverridesDeclaredDefault(own: seq<Attribute>, base: seq<Attribute>, modelName: string,
                                     env: map<string, string>, i: nat, value: string)
    requires i < |own| + |base|
    requires !OrderViolation(own + base)
    ensures var key := FieldEnvKey(modelName, (own + base)[i].name);
            && BuildFieldTable(own, base, modelName, env[key := value]).value[i].default == Given(Str(value))
            && BuildFieldTable(own, base, modelName, env - {key}).value[i].default == (own + base)[i].default
  {
  }

  // ---------------------------------------------------------------------------
  // Generation sub-schema (lines 569-599)

  /**
   `_evolve_with_base_default` for one field: without an own
   `GenerationConfig` block the declared default is kept and the environment
   is not consulted; with one, the block's attribute wins, then the
   environment, then the declared default.
   */
  function GenerationDefault(f: Attribute, modelName: string, block: Option<map<string, Value>>,
                             env: map<string, string>): (d: Default)
    ensures block.None? ==> d == f.default
    ensures block.Some? && f.name in block.value ==> d == Given(block.value[f.name])
    ensures block.Some? && f.name !in block.value ==>
      d == EnvDefault(env, GenerationEnvKey(modelName, f.name), f.default)
    ensures d.Given? || d == f.default
  {
    var fromEnv := EnvDefault(env, GenerationEnvKey(modelName, f.name), f.default);
    if block.None? then f.default
    else if f.name in block.value then Given(block.value[f.name])
    else fromEnv
  }

  /** The fields of the generated `<Name>GenerationConfig` class. */
  function GenerationFields(base: seq<Attribute>, modelName: string, block: Option<map<string, Value>>,
                            env: map<string, string>): (r: seq<Attribute>)
    ensures |r| == |base|
    ensures forall i :: 0 <= i < |r| ==>
      && r[i].name == base[i].name
      && r[i].env == Some(GenerationEnvKey(modelName, base[i].name))
      && r[i].description == base[i].description
      && r[i].inherited
    // `f.evolve(default=..., metadata=...)` carries everything else over from the base field
    ensures forall i :: 0 <= i < |r| ==> r[i] == base[i].(default := r[i].default, env := r[i].env, inherited := true)
    ensures block.None? ==> forall i :: 0 <= i < |r| ==> r[i].default == base[i].default
    ensures block.Some? ==> forall i :: 0 <= i < |r| ==>
      var key := GenerationEnvKey(modelName, base[i].name);
      r[i].default ==
        (if base[i].name in block.value then Given(block.value[base[i].name])
         else if key in env then Given(Str(env[key]))
         else base[i].default)
  {
    seq(|base|, i requires 0 <= i < |base| =>
      base[i].(default := GenerationDefault(base[i], modelName, block, env),
               env := Some(GenerationEnvKey(modelName, base[i].name)),
               inherited := true))
  }

  /** Without an own block, generation defaults do not depend on the environment at all. */
  lemma GenerationIgnoresEnvWithoutBlock(base: seq<Attribute>, modelName: string,
                                         env1: map<string, string>, env2: map<string, string>)
    ensures GenerationFields(base, modelName, None, env1) == GenerationFields(base, modelName, None, env2)
  {
  }

  /** With an own block, a value it sets wins over any environment. */
  lemma GenerationBlockBeatsEnv(base: seq<Attribute>, modelName: string, block: map<string, Value>,
                                env1: map<string, string>, env2: map<string, string>, i: nat)
    requires i < |base| && base[i].name in block
    ensures GenerationFields(base, modelName, Some(block), env1)[i]
         == GenerationFields(base, modelName, Some(block), env2)[i]
  {
  }

  /** The generated class's name, `cls.__name__.replace("Config", "GenerationConfig")`. */
  function GenerationClassName(className: string): string {
    ReplaceAll(className, "Config", "GenerationConfig")
  }

  function GenField(name: string, typ: string, default: Value): Attribute {
    Attribute(name, typ, Given(default), true, false, false, None, None, None)
  }

  /**
   The fields of the base `GenerationConfig` class (lines 170-391), in
   declaration order. Fields declared without a default carry `None`.
   */
  function BaseGenerationConfig(): seq<Attribute> {
    [ GenField("max_new_tokens", "int", Int(20)),
      GenField("min_length", "int", Int(0)),
      GenField("min_new_tokens", "int", Null),
      GenField("early_stopping", "bool", Bool(false)),
      GenField("max_time", "float", Null),
      GenField("num_beams", "int", Int(1)),
      GenField("num_beam_groups", "int", Int(1)),
      GenField("penalty_alpha", "float", Null),
      GenField("use_cache", "bool", Bool(true)),
      GenField("temperature", "float", Real(1.0)),
      GenField("top_k", "int", Int(50)),
      GenField("top_p", "float", Real(1.0)),
      GenField("typical_p", "float", Real(1.0)),
      GenField("epsilon_cutoff", "float", Real(0.0)),
      GenField("eta_cutoff", "float", Real(0.0)),
      GenField("diversity_penalty", "float", Real(0.0)),
      GenField("repetition_penalty", "float", Real(1.0)),
      GenField("encoder_repetition_penalty", "float", Real(1.0)),
      GenField("length_penalty", "float", Real(1.0)),
      GenField("no_repeat_ngram_size", "int", Int(0)),
      GenField("bad_words_ids", "t.List[t.List[int]]", Null),
      GenField("force_words_ids", "t.Union[t.List[t.List[int]], t.List[t.List[t.List[int]]]]", Null),
      GenField("renormalize_logits", "bool", Bool(false)),
      GenField("constraints", "t.List[Constraint]", Null),
      GenField("forced_bos_token_id", "int", Null),
      GenField("forced_eos_token_id", "t.Union[int, t.List[int]]", Null),
      GenField("remove_invalid_values", "bool", Bool(false)),
      GenField("exponential_decay_length_penalty", "t.Tuple[int, float]", Null),
      GenField("suppress_tokens", "t.List[int]", Null),
      GenField("begin_suppress_tokens", "t.List[int]", Null),
      GenField("forced_decoder_ids", "t.List[t.List[int]]", Null),
      GenField("num_return_sequences", "int", Int(1)),
      GenField("output_attentions", "bool", Bool(false)),
      GenField("output_hidden_states", "bool", Bool(false)),
      GenField("output_scores", "bool", Bool(false)),
      GenField("pad_token_id", "int", Null),
      GenField("bos_token_id", "int", Null),
      GenField("eos_token_id", "t.Union[int, t.List[int]]", Null),
      GenField("encoder_no_repeat_ngram_size", "int", Int(0)),
      GenField("decoder_start_token_id", "int", Null) ]
  }

  // ---------------------------------------------------------------------------
  // The whole registration

  /** What registration leaves on the class. */
  datatype Schema = Schema(
    config: ModelConfig,
    ownNames: seq<string>,          // __openllm_attrs__
    attrs: seq<Attribute>,          // __attrs_attrs__
    generationClassName: string,
    generation: seq<Attribute>)     // attr.fields(generation_class)

  /** `__openllm_accepted_keys__`: own field names and generation field names. */
  function AcceptedKeys(s: Schema): (keys: set<string>)
    ensures forall n :: n in keys <==> n in s.ownNames || exists a :: a in s.generation && a.name == n
  {
    (set n | n in s.ownNames) + NameSet(s.generation)
  }

  /**
   `__init_subclass__` for a class with the given name, `__config__`, body,
   ancestor tables (nearest first), own `GenerationConfig` block and process
   environment.
   */
  function BuildSchema(className: string, raw: RawModelConfig, body: ClassBody, mro: seq<seq<Attribute>>,
                       block: Option<map<string, Value>>, env: map<string, string>, inflection: Inflection)
    : (r: Result<Schema>)
    requires UniqueAnnotations(body)
    ensures raw.defaultId.None? ==> r == Err(MissingDefaultId)
    ensures raw.defaultId.Some? && raw.modelIds.None? ==> r == Err(MissingModelIds)
    ensures raw.defaultId.Some? && raw.modelIds.Some? && Unannotated(body) != {} ==>
              r == Err(MissingAnnotation(Unannotated(body)))
    // Past those checks, registration fails exactly on an order violation in own-then-inherited fields.
    ensures raw.defaultId.Some? && raw.modelIds.Some? && Unannotated(body) == {} ==>
      var modelName := GenDefaultModelConfig(className, raw, inflection).value.modelName;
      var own := OwnAttrs(body, modelName).value;
      var base := BaseAttributes(mro, NameSet(own));
      && (r.Err? <==> OrderViolation(own + base))
      && (r.Err? ==> r.error.InvalidFieldOrder?)
      && (r.Ok? ==> r.value.attrs == BuildFieldTable(own, base, modelName, env).value)
    ensures r.Ok? ==>
      && GenDefaultModelConfig(className, raw, inflection) == Ok(r.value.config)
      && NoDuplicateNames(r.value.attrs)
      && r.value.ownNames == Names(OwnAttrs(body, r.value.config.modelName).value)
      && r.value.ownNames <= Names(r.value.attrs)
      && (forall a :: a in r.value.attrs[|r.value.ownNames|..] ==> a.inherited)
      && r.value.generationClassName == GenerationClassName(className)
      && r.value.generation == GenerationFields(BaseGenerationConfig(), r.value.config.modelName, block, env)
      && |r.value.generation| == |BaseGenerationConfig()|
  {
    match GenDefaultModelConfig(className, raw, inflection)
    case Err(e) => Err(e)
    case Ok(config) =>
      match OwnAttrs(body, config.modelName)
      case Err(e) => Err(e)
      case Ok(own) =>
        var base := BaseAttributes(mro, NameSet(own));
        match BuildFieldTable(own, base, config.modelName, env)
        case Err(e) => Err(e)
        case Ok(attrs) =>
          OwnNamesUnique(body, config.modelName);
          FieldTableFacts(own, base, config.modelName, env);
          Ok(Schema(config, Names(own), attrs, GenerationClassName(className),
                    GenerationFields(BaseGenerationConfig(), config.modelName, block, env)))
  }

  lemma OwnNamesUnique(body: ClassBody, modelName: string)
    requires UniqueAnnotations(body)
    requires OwnAttrs(body, modelName).Ok?
    ensures NoDuplicateNames(OwnAttrs(body, modelName).value)
  {
    FieldAnnotationsUnique(body.annotations);
    var fields := FieldAnnotations(body.annotations);
    var own := OwnAttrs(body, modelName).value;
    assert |own| == |fields|;
    assert forall i :: 0 <= i < |own| ==> own[i].name == fields[i].0;
    forall i, j | 0 <= i < j < |own|
      ensures own[i].name != own[j].name
    {
      assert fields[i].0 != fields[j].0;
    }
  }

  /** Own names are unique, inherited names are unique and avoid them: the table has no duplicates. */
  lemma TableNamesUnique(own: seq<Attribute>, base: seq<Attribute>, attrs: seq<Attribute>)
    requires NoDuplicateNames(own) && NoDuplicateNames(base)
    requires forall x :: x in base ==> x.name !in NameSet(own)
    requires Names(attrs) == Names(own) + Names(base)
    ensures NoDuplicateNames(attrs)
    ensures Names(own) <= Names(attrs)
    ensures forall k :: |own| <= k < |attrs| ==> attrs[k].name == base[k - |own|].name
  {
    assert |attrs| == |own| + |base|;
    forall i, j | 0 <= i < j < |attrs|
      ensures attrs[i].name != attrs[j].name
    {
      assert attrs[i].name == Names(attrs)[i] && attrs[j].name == Names(attrs)[j];
      if j < |own| {
        assert Names(attrs)[i] == own[i].name && Names(attrs)[j] == own[j].name;
      } else if i >= |own| {
        assert Names(attrs)[i] == base[i - |own|].name && Names(attrs)[j] == base[j - |own|].name;
      } else {
        assert Names(attrs)[i] == own[i].name && Names(attrs)[j] == base[j - |own|].name;
        assert base[j - |own|] in base && own[i] in own;
      }
    }
    forall k | |own| <= k < |attrs|
      ensures attrs[k].name == base[k - |own|].name
    {
      assert Names(attrs)[k] == attrs[k].name;
    }
  }

  /** The facts registration keeps about a successfully built field table. */
  lemma FieldTableFacts(own: seq<Attribute>, base: seq<Attribute>, modelName: string, env: map<string, string>)
    requires NoDuplicateNames(own) && NoDuplicateNames(base)
    requires forall x :: x in base ==> x.inherited && x.name !in NameSet(own)
    requires BuildFieldTable(own, base, modelName, env).Ok?
    ensures var attrs := BuildFieldTable(own, base, modelName, env).value;
            && NoDuplicateNames(attrs)
            && Names(own) <= Names(attrs)
            && forall a :: a in attrs[|own|..] ==> a.inherited
  {
    var attrs := BuildFieldTable(own, base, modelName, env).value;
    TableNamesUnique(own, base, attrs);
    forall a | a in attrs[|own|..]
      ensures a.inherited
    {
      var k :| 0 <= k < |attrs[|own|..]| && attrs[|own|..][k] == a;
      assert attrs[|own| + k] == (own + base)[|own| + k].(alias := attrs[|own| + k].alias,
                                                         default := attrs[|own| + k].default);
      assert (own + base)[|own| + k] == base[k];
    }
  }
}

=== FILE: values.dfy ===
/**
 Configuration values and the process-wide `config_merger`
 (src/openllm/_configuration.py:89-96): dictionaries merge key by key, every
 other type, and every type conflict, is overridden by the right-hand value.
 */
module Values {
  import opened Common

  /** The JSON-like values that flow through keyword arguments and extras. */
  datatype Value =
    | Null
    | Bool(b: bool)
    | Int(i: int)
    | Real(r: real)
    | Str(s: string)
    | List(items: seq<Value>)
    | Dict(fields: map<string, Value>)

  /**
   The merge strategy: the "merge" strategy for two dictionaries, the
   "override" fallback and type-conflict strategies for everything else.
   */
  function Merge(left: Value, right: Value): (r: Value)
    ensures !(left.Dict? && right.Dict?) ==> r == right
    ensures left.Dict? && right.Dict? ==>
      && r.Dict? && r.fields.Keys == left.fields.Keys + right.fields.Keys
      && (forall k :: k in left.fields && k !in right.fields ==> r.fields[k] == left.fields[k])
      && (forall k :: k in right.fields && k !in left.fields ==> r.fields[k] == right.fields[k])
      && (forall k :: k in left.fields && k in right.fields ==> r.fields[k] == Merge(left.fields[k], right.fields[k]))
    decreases left
  {
    if left.Dict? && right.Dict? then
      Dict(map k | k in left.fields.Keys + right.fields.Keys ::
             if k in left.fields && k in right.fields then Merge(left.fields[k], right.fields[k])
             else if k in right.fields then right.fields[k]
             else left.fields[k])
    else right
  }

  /**
   `config_merger.merge(target, source)` on two dictionaries, which is how the
   engine always calls it: the resulting contents of `target`.
   */
  function MergeMaps(target: map<string, Value>, source: map<string, Value>): (m: map<string, Value>)
    ensures m.Keys == target.Keys + source.Keys
    ensures forall k :: k in target && k !in source ==> m[k] == target[k]
    ensures forall k :: k in source && !(k in target && target[k].Dict? && source[k].Dict?) ==> m[k] == source[k]
    ensures forall k :: k in target && k in source ==> m[k] == Merge(target[k], source[k])
  {
    var m := Merge(Dict(target), Dict(source)).fields;
    assert forall k :: k in target && k in source && !(target[k].Dict? && source[k].Dict?) ==>
      Merge(target[k], source[k]) == source[k];
    m
  }

  /** Merging into an empty mapping gives back the source: the merge's left identity. */
  lemma MergeIntoEmpty(source: map<string, Value>)
    ensures MergeMaps(map[], source) == source
  {
    var m := MergeMaps(map[], source);
    assert m.Keys == source.Keys;
  }

  /**
   The entries of `d` whose keys are in `names`: a dict comprehension
   filtering on membership, named so that the proofs using it stay small.
   */
  function Restrict(d: map<string, Value>, names: set<string>): (m: map<string, Value>)
    ensures m.Keys == d.Keys * names
    ensures forall k :: k in m ==> m[k] == d[k]
  {
    map k | k in d && k in names :: d[k]
  }

  /** The entries of `d` whose keys are not in `names`; a named step like `Restrict`. */
  function Without(d: map<string, Value>, names: set<string>): (m: map<string, Value>)
    ensures m.Keys == d.Keys - names
    ensures forall k :: k in m ==> m[k] == d[k]
  {
    map k | k in d && k !in names :: d[k]
  }

  /** The value reached by following `path` through nested dictionaries. */
  function Get(v: Value, path: seq<string>): Option<Value>
    decreases |path|
  {
    if path == [] then Some(v)
    else if v.Dict? && path[0] in v.fields then Get(v.fields[path[0]], path[1..])
    else None
  }

  /** `path` leads out of `right`'s dictionaries before reaching a value there. */
  predicate Untouched(right: Value, path: seq<string>)
    decreases |path|
  {
    path != [] && right.Dict? &&
    (path[0] !in right.fields || Untouched(right.fields[path[0]], path[1..]))
  }

  /** Whatever non-dictionary value the override holds at a path is what the merge holds there. */
  lemma {:induction false} MergeRightLeafWins(left: Value, right: Value, path: seq<string>)
    requires Get(right, path).Some? && !Get(right, path).value.Dict?
    ensures Get(Merge(left, right), path) == Get(right, path)
    decreases |path|
  {
    if path != [] {
      var k := path[0];
      if left.Dict? {
        assert right.Dict? && k in right.fields;
        var m := Merge(left, right);
        if k in left.fields {
          assert m.fields[k] == Merge(left.fields[k], right.fields[k]);
          MergeRightLeafWins(left.fields[k], right.fields[k], path[1..]);
        } else {
          assert m.fields[k] == right.fields[k];
        }
      }
    }
  }

  /** A key of the target survives the merge unless the source overrides a dictionary on its path. */
  lemma {:induction false} MergeKeepsUntouched(left: Value, right: Value, path: seq<string>)
    requires Get(left, path).Some?
    requires Untouched(right, path)
    ensures Get(Merge(left, right), path) == Get(left, path)
    decreases |path|
  {
    var k := path[0];
    assert left.Dict? && k in left.fields;
    var m := Merge(left, right);
    if k in right.fields {
      assert m.fields[k] == Merge(left.fields[k], right.fields[k]);
      MergeKeepsUntouched(left.fields[k], right.fields[k], path[1..]);
    } else {
      assert m.fields[k] == left.fields[k];
    }
  }

  /** Merging a value with itself changes nothing. */
  lemma {:induction false} MergeSelf(v: Value)
    ensures Merge(v, v) == v
    decreases v
  {
    if v.Dict? {
      var m := Merge(v, v);
      forall k | k in v.fields
        ensures m.fields[k] == v.fields[k]
      {
        MergeSelf(v.fields[k]);
      }
      assert m.fields == v.fields;
    }
  }

  /** Applying the same override a second time is a no-op. */
  lemma {:induction false} MergeRightIdempotent(left: Value, right: Value)
    ensures Merge(Merge(left, right), right) == Merge(left, right)
    decreases left
  {
    var m := Merge(left, right);
    if left.Dict? && right.Dict? {
      var mm := Merge(m, right);
      forall k | k in m.fields
        ensures mm.fields[k] == m.fields[k]
      {
        if k in left.fields && k in right.fields {
          MergeRightIdempotent(left.fields[k], right.fields[k]);
        } else if k in right.fields {
          MergeSelf(right.fields[k]);
        }
      }
      assert mm.fields == m.fields;
    } else if right.Dict? {
      MergeSelf(right);
    }
  }

  /** The two laws given for the merge policy, on concrete inputs. */
  lemma MergeExamples()
    ensures MergeMaps(map["a" := Dict(map["x" := Int(1)])], map["a" := Dict(map["y" := Int(2)])])
         == map["a" := Dict(map["x" := Int(1), "y" := Int(2)])]
    ensures MergeMaps(map["a" := Int(1)], map["a" := Dict(map["y" := Int(2)])])
         == map["a" := Dict(map["y" := Int(2)])]
  {
    MergeNestedExample();
    var m := MergeMaps(map["a" := Int(1)], map["a" := Dict(map["y" := Int(2)])]);
    assert m.Keys == {"a"};
  }

  /** Two nested dictionaries under the same key combine their entries. */
  lemma MergeNestedExample()
    ensures MergeMaps(map["a" := Dict(map["x" := Int(1)])], map["a" := Dict(map["y" := Int(2)])])
         == map["a" := Dict(map["x" := Int(1), "y" := Int(2)])]
  {
    var inner := Merge(Dict(map["x" := Int(1)]), Dict(map["y" := Int(2)]));
    assert inner.fields.Keys == {"x", "y"};
    assert inner == Dict(map["x" := Int(1), "y" := Int(2)]);
    var m := MergeMaps(map["a" := Dict(map["x" := Int(1)])], map["a" := Dict(map["y" := Int(2)])]);
    assert m.Keys == {"a"};
  }
}
